=== FILE: README.md ===
# Ecoponto kiosk front-end, modelled in Dafny

Ecoponto is a kiosk where residents drop off used cooking oil in PET bottles.
The drawer is weighed, and each accepted deposit earns loyalty credits. A
credit can be redeemed for a new 500 ml bottle of oil. This project models
the browser side of the kiosk, which is a Next.js application:

- the input canonicalisers shared by the forms: `formatCPF`, `formatPhone`
  and the four-digit PIN sanitiser (`Masks`, over the small part of
  JavaScript string semantics they use, in `Js`);
- `fetch` and the one-read rule for response bodies (`Http`);
- the two-step registration modal (`Register`) and the login modal (`Login`);
- the profile page, where only the address and phone can be edited (`Profile`);
- the discard page's lock, weigh, validate and unlock cycle (`Discard`);
- the loyalty page's balance, history and one-credit redemption (`Loyalty`).

Every page is a state plus a `Next` transition over the user's clicks and
keystrokes and over the settling of its requests. The requests a page issues
are returned as effects or commands. What the network yields is an input:
either the request never reached a server, or a response arrived with a
status, a text body and, when that text is JSON, its decoded value.

A control that is not rendered, or is disabled, is an event that changes
nothing. Handlers that await several requests in a row (`processarPeso`,
`handleResgatar`) are one transition that takes each request's outcome as a
parameter. Handlers with a single request are split at the `await`, so that
events may arrive while the request is pending. The exception is
`iniciarDescarte`, which is one transition taking the lock request's outcome.
That is sound because its button is disabled while the request is pending
(`Discard.Next` states it), and no other modelled control is on that screen;
the "Voltar" navigation is left out.

Where the source has a bug (see "## Findings"), the model keeps the code as
written in the page transitions, and it states the corrected behaviour next
to it. The registration modal's `Next` handles the reply with
`CompleteAsWritten`; `Complete` is the corrected handler.

## Model

| member | source | states |
|---|---|---|
| Js.Digits | components/RegisterModal.tsx:31 | `replace(/\D/g, '')` yields only digits and is never longer than its input; it leaves a string unchanged exactly when the string is all digits |
| Js.DigitsConcat | components/RegisterModal.tsx:31 | stripping non-digits distributes over concatenation, so the digits keep their order |
| Js.Prefix | components/LoginModal.tsx:85 | `slice(0, n)` is a prefix of length `min(n, len)` |
| Js.OrElse | components/LoginModal.tsx:49 | `a \|\| b` yields either `a` or `b`: `a` when present and non-empty, `b` otherwise; it is never blank when the default is not, so no refusal shows an empty error |
| Js.DecimalRoundTrip | components/RegisterModal.tsx:108 | a natural number rendered in decimal, as a template literal or a JSX text child does, reads back as the same number |
| Js.IntStringRoundTrip | app/home/fidelidade/page.tsx:142 | any integer rendered as text, as the credits of a history entry are, with or without a minus sign, reads back as the same integer |
| Http.FetchJson | components/LoginModal.tsx:31-42 | `fetch` followed by `json()` completes normally exactly when a response arrived with a JSON body, and then yields that body |
| Masks.FirstRun | components/RegisterModal.tsx:33 | the non-global pattern matches at the leftmost index where enough consecutive digits start, and at no earlier index |
| Masks.DigitsOfFill | components/RegisterModal.tsx:33 | filling a template with digits and stripping the non-digits gives the digits back |
| Masks.FormatCases | components/RegisterModal.tsx:30-36 | for an eleven-digit pattern: fewer than eleven digits come back bare, exactly eleven are filled into the template, and more than eleven leave the typed value untouched |
| Masks.FormatKeepsDigits | components/RegisterModal.tsx:30-36 | a formatter never adds or loses a digit |
| Masks.FormatIdempotent | components/RegisterModal.tsx:30-36 | formatting a formatted value changes nothing |
| Masks.FormatCpf | components/RegisterModal.tsx:30-36 | eleven digits become `DDD.DDD.DDD-DD` carrying those digits in order; fewer come back as bare digits; more leave the value as typed; the digits are preserved; a value of at most 14 characters stays within 14 |
| Masks.FormatPhone | components/RegisterModal.tsx:38-44 | eleven digits become `(DD) DDDDD-DDDD` carrying those digits; fewer come back as bare digits; more leave the value as typed; the digits are preserved |
| Masks.FormatCpfIdempotent | components/LoginModal.tsx:17-23 | re-formatting what the CPF input holds changes nothing |
| Masks.FormatPhoneIdempotent | app/home/dados/page.tsx:64-70 | re-formatting what the phone input holds changes nothing |
| Masks.CpfRoundTrip | app/home/dados/page.tsx:56-62 | a string has the `DDD.DDD.DDD-DD` shape exactly when it has eleven digits and formatting those digits reproduces it |
| Masks.PhoneRoundTrip | app/home/dados/page.tsx:64-70 | a string has the `(DD) DDDDD-DDDD` shape exactly when it has eleven digits and formatting those digits reproduces it |
| Masks.SanitizePin | components/RegisterModal.tsx:246-249 | the PIN input holds at most four characters, all digits: the first digits typed, all of them when there are at most four and exactly four otherwise |
| Masks.SanitizePinIdempotent | components/LoginModal.tsx:84-87 | sanitising is idempotent, and a value is its own sanitisation exactly when it is at most four digits |
| Register.Edit | components/RegisterModal.tsx:139-265 | an input not on the current step changes nothing; a rendered input stores its value in its own field and no other field changes: the CPF and phone as `formatCPF`/`formatPhone` of what was typed, the two PINs sanitised, the rest as typed; the typed CPF and phone keep exactly the digits typed; canonical masked values stay canonical when the browser's `maxLength` holds |
| Register.SubmitPersonalData | components/RegisterModal.tsx:46-54 | the second step opens with the error cleared exactly when all eight fields are non-empty; otherwise "Preencha todos os campos" is shown |
| Register.Payload | components/RegisterModal.tsx:84-94 | the request carries the CPF and phone as their digits only and every other field as held |
| Register.SubmitPin | components/RegisterModal.tsx:56-72 | a request goes out exactly for two equal PINs of length four; a mismatch is reported before a wrong length; a refused PIN leaves `loading` alone |
| Register.CompleteAsWritten | components/RegisterModal.tsx:97-123 | the handler as written: `onSuccess` runs exactly for an ok response with a JSON body; a refusal with a JSON body shows the server's message or the default; a refusal without one shows the connection error of the second body read; no failure leaves the error blank; `loading` is cleared on every path |
| Register.Rejection | components/RegisterModal.tsx:99-112 | the corrected refusal message of the first Findings row: the server's message when the body is JSON, and the status line when it is not |
| Register.Complete | components/RegisterModal.tsx:97-123 | the corrected handler of the first Findings row: `onSuccess` runs exactly for an ok response with a JSON body; an unreachable server shows the connection error with the failure's message; a refusal shows `Rejection`; no failure leaves the error blank; `loading` is cleared on every path |
| Register.StatusMessageUnreachable | components/RegisterModal.tsx:105-108 | for every refusal whose body is not JSON, the code as written throws on the second body read and shows a connection error instead of the status line |
| Register.BadGatewayAsWritten | components/RegisterModal.tsx:99-120 | a 502 with an HTML body is reported, as written, as "Erro de conexão: Failed to execute 'text' on 'Response': body stream already read" |
| Register.BadGatewayCorrected | components/RegisterModal.tsx:108 | the corrected handler reports the same response as "Erro 502: Bad Gateway" |
| Register.CompleteAgreesElsewhere | components/RegisterModal.tsx:97-123 | the handler as written and the corrected one agree on every outcome except a refusal whose body is not JSON |
| Register.Next | components/RegisterModal.tsx:278-285 | a request is sent exactly when the second step is submitted, not already loading, with two equal four-character PINs; it carries the payload; canonical forms stay canonical; the second step is only ever shown for a complete first step, so every request comes from a complete one |
| Register.RunKeepsCanonical | components/RegisterModal.tsx:197-267 | whatever is typed within the inputs' `maxLength`, the masked inputs always hold values their handlers leave unchanged |
| Register.RunSendsWellFormed | components/RegisterModal.tsx:84-94 | every request sent in any run carries a four-digit PIN and an all-digit CPF and phone |
| Register.RunSendsFilled | components/RegisterModal.tsx:46-94 | in any run, every request sent has all eight personal fields filled in, and the CPF and phone keep at least one digit: the first-step check is never bypassed |
| Register.InitialRunSendsFilled | components/RegisterModal.tsx:46-94 | from the empty modal, every request sent is filled in, with a four-digit PIN and an all-digit CPF and phone |
| Register.SubmittedCpfIsTypedDigits | components/RegisterModal.tsx:92 | the CPF sent is the digits of the last value typed into the CPF input |
| Login.Edit | components/LoginModal.tsx:71-87 | the PIN input holds the sanitised PIN: at most four digits, a prefix of those typed, of length the number of digits typed capped at four; the CPF input holds `formatCPF` of what was typed, with the digits typed; each input leaves the other alone; canonical values stay canonical |
| Login.Begin | components/LoginModal.tsx:25-40 | a request goes out exactly when no request is pending; it carries the CPF as digits only; the error is cleared and `loading` set |
| Login.Complete | components/LoginModal.tsx:42-56 | a session is stored exactly for an ok response with a JSON body, holding its token and user; a refusal shows the server's message or "Erro ao fazer login"; a failure shows the connection error; `loading` ends on every path |
| Login.Next | components/LoginModal.tsx:25-101 | a request is sent exactly on a submit with nothing pending, with an all-digit CPF; signing in only follows a reply; canonical forms stay canonical |
| Login.SubmitThenReply | components/LoginModal.tsx:25-56 | typing a CPF, submitting and receiving a reply sends that CPF's digits, ends loading, signs in exactly on an ok JSON reply, and shows an error otherwise |
| Profile.Load | app/home/dados/page.tsx:37-54 | only an ok JSON reply replaces the user data; `loading` ends whatever happens |
| Profile.ApplyChange | app/home/dados/page.tsx:174-209 | an edit stores its value in its own field and changes no other: never the name, CPF, birth date or gender; state, city and address as typed; a typed phone as `formatPhone` of what was typed, with its digits kept |
| Profile.UpdateOf | app/home/dados/page.tsx:86-91 | the update body carries the phone as digits only and the three address fields as held |
| Profile.UpdateIgnoresIdentity | app/home/dados/page.tsx:86-91 | the fields the page cannot edit never influence the update sent |
| Profile.BeginSave | app/home/dados/page.tsx:72-92 | without loaded data nothing happens; otherwise both messages are cleared, `saving` is set and the update goes out |
| Profile.CompleteSave | app/home/dados/page.tsx:94-107 | editing ends exactly on an ok JSON reply, with the success message; a refusal shows the server's message or the default; a failure shows the connection error; `saving` ends on every path |
| Profile.Next | app/home/dados/page.tsx:213-240 | outside a reload, no event changes the identity fields; the user data only changes on a reload or on an edit while editing; every update sent is that of the current data |
| Profile.EditApplies | app/home/dados/page.tsx:177-209 | while editing, a keystroke in an editable field rewrites the data on screen through that field's `onChange` handler and sends nothing |
| Profile.SaveSendsUpdate | app/home/dados/page.tsx:72-92 | saving while editing sends exactly one request: the update of the data on screen |
| Profile.RunKeepsIdentity | app/home/dados/page.tsx:133-166 | until the data is reloaded, no sequence of clicks and keystrokes changes the name, CPF, birth date or gender |
| Profile.RunSendsDigitPhones | app/home/dados/page.tsx:87 | every update sent in any run carries an all-digit phone |
| Profile.ShownCpf | app/home/dados/page.tsx:145 | a stored eleven-digit CPF is shown in the `DDD.DDD.DDD-DD` shape with the same digits |
| Profile.ShownPhone | app/home/dados/page.tsx:207 | a stored eleven-digit phone is shown in the `(DD) DDDDD-DDDD` shape with the same digits |
| Profile.TypedPhoneIsSaved | app/home/dados/page.tsx:208 | typing a phone number and saving sends exactly its digits |
| Discard.StartDeposit | app/home/descarte/page.tsx:22-43 | one lock request; if it cannot be delivered, the page stays on the first screen with an error and `loading` cleared; otherwise it waits for the drawer with `loading` set |
| Discard.CloseDrawer | app/home/descarte/page.tsx:34-38 | the close wait moves the page to weighing with "Pesando..." |
| Discard.MeasuredWeight | app/home/descarte/page.tsx:50 | a missing weight counts as zero |
| Discard.ProcessWeight | app/home/descarte/page.tsx:45-89 | the cycle always ends on the result screen with a verdict; the drawer is unlocked exactly for an accepted deposit that earned credits; the verdict is `aceito` exactly when the server accepted and any needed unlock was delivered; a refusal shows the server's reason or the default; an accepted verdict shows the accepted notice with the weight read and the credits earned; an accepted, credited deposit whose unlock cannot be delivered shows the generic error as `recusado`; the weight read is the one validated |
| Discard.Next | app/home/descarte/page.tsx:102-171 | a control not on screen or disabled does nothing: the lock is requested only from the first screen when not loading, so a pending start cannot be repeated; the scale is read and the drawer unlocked only by the weighing on its screen; "Novo descarte" acts only after an accepted deposit |
| Discard.Restart | app/home/descarte/page.tsx:95-100 | a new discard clears the weight, the verdict and the message |
| Discard.ProcessWeightCommands | app/home/descarte/page.tsx:45-75 | one weighing reads the scale once, locks nothing, and unlocks only straight after a validation |
| Discard.NextCommands | app/home/descarte/page.tsx:122-166 | one event reads the scale only inside a cycle a lock request opened |
| Discard.RunCommandsOrdered | app/home/descarte/page.tsx:22-100 | over any run the page stays consistent, the scale is read at most once per lock request, and every unlock comes straight after a validation |
| Discard.RunFromInitial | app/home/descarte/page.tsx:9-13 | from the first screen, no run weighs more often than it locks or unlocks without a validation |
| Discard.NewDiscardOnlyAfterAcceptance | app/home/descarte/page.tsx:164-168 | "Novo descarte" acts only on the result screen of an accepted deposit, and there it returns to the first screen |
| Discard.RefusalNeverUnlocks | app/home/descarte/page.tsx:76-79 | a refused deposit never unlocks the drawer and always shows `recusado` |
| Discard.NextKeepsValid | app/home/descarte/page.tsx:108-171 | a verdict is shown exactly on the result screen, and `loading` is on exactly while the drawer is locked and the page waits |
| Loyalty.Load | app/home/fidelidade/page.tsx:32-57 | only when both bodies read as JSON are the balance (`creditos \|\| 0`) and the history (`historico \|\| []`) replaced, and then together; `loading` ends on every path |
| Loyalty.Redemption | app/home/fidelidade/page.tsx:59-93 | without a credit only an alert is shown; otherwise exactly one credit is requested; the drawer is unlocked exactly on an ok JSON reply; the dialog closes and the data reloads exactly when that unlock is delivered; each failure alerts its message, and no alert is blank |
| Loyalty.Next | app/home/fidelidade/page.tsx:114-168 | a redemption is only requested from the open dialog with at least one credit, always for one credit; the dialog only opens through the redeem button |
| Loyalty.LoadWithoutCreditOffersNothing | app/home/fidelidade/page.tsx:50 | a balance reply whose `creditos` is missing, zero or negative hides the redeem button, and opening the dialog then does nothing |
| Loyalty.RunWithoutCreditNeverRedeems | app/home/fidelidade/page.tsx:50-114 | starting without a credit, a run in which no load delivers a positive balance never requests a redemption and never unlocks the drawer |
| Loyalty.InitialWithoutCreditNeverRedeems | app/home/fidelidade/page.tsx:17-20 | from the initial page, missing or zero balances never lead to a redemption request or an unlock |
| Loyalty.RunUnlocksFollowRedemption | app/home/fidelidade/page.tsx:77-83 | in any run the drawer is only unlocked straight after the success alert, which is straight after a one-credit redemption request |
| Loyalty.OpenRedeemNeedsCredit | app/home/fidelidade/page.tsx:114 | the dialog opens exactly when the page has loaded and holds at least one credit |
| Loyalty.ShownAmountReadsBack | app/home/fidelidade/page.tsx:142 | a history entry's amount starts with `+` exactly for a `descarte`, and the rest reads back as its credits |
| Loyalty.CreditsLabel | app/home/fidelidade/page.tsx:112 | the label under the balance is singular exactly for one credit and correctly pluralised otherwise |
| Loyalty.CreditsLabelMisspelt | app/home/fidelidade/page.tsx:112 | for every count but one, the label as written reads "Créditos disponíveleis" |
| Loyalty.CreditsLabelAgreesOnlyOnOne | app/home/fidelidade/page.tsx:112 | the label as written and the corrected one agree exactly for one credit |

## Left out

- Navigation and local storage: the redirects to `/` without a token, the
  pages' "← Voltar" links, the modals' close button and overlay (`onClose`
  unmounts the modal), and `localStorage` reads. The registration form's
  own step-two "Voltar" is modelled, as the `Back` event of `Register.Next`.
  The token a successful login stores is returned as `Login.Session` rather
  than written anywhere.
- `app/page.tsx`, `app/home/page.tsx` and `app/layout.tsx` are not part of
  this model. They hold the landing page, the menu and the layout, and none
  of them transforms input.
- Timers: the 5 second drawer wait is the `DrawerClosed` event. The 3 second
  timer that clears the profile's success message is not modelled.
- Presentation: `toFixed(2)`, `toLocaleString('pt-BR')`, icons and CSS. The
  accepted-deposit message keeps the weight and credits it interpolates, as
  `Discard.AcceptedNotice`.
- Logging: `console.log` and `console.error` have no observable effect on
  the pages.
- The browser's own checks that block a submit before the handler runs:
  `required` and `maxLength`. `maxLength` is stated as the `Allowed` and
  `WithinMaxLength` hypotheses; `required` is left out, so the handlers' own
  empty-field checks are modelled as if they could be reached.
- Numbers: credits and statuses are `int` and weights are `real`; no
  floating-point rounding is modelled.
- Js.IntString: renders every integer in plain decimal. JavaScript writes
  integers of 1e21 and above in exponent form ("1e+21"); the model does not
  cover that. JSON values of the wrong type, such as a missing
  `creditos_gerados` or a `null` body, are not modelled.
- Http.ExceptionMessage: the message for a second body read uses a
  Chromium-based browser's wording. The JSON parse error's wording quotes the
  offending body and differs between engines, so it is abbreviated to
  "Unexpected token in JSON".
- Concurrency between requests is not modelled beyond the split at each
  `await`. For example, the loyalty reload after a redemption is issued as
  commands, and its result arrives later as a separate `Loaded` event.
- Loyalty.Redemption: overlapping redemptions are not modelled. The handler
  has no pending flag and the "Confirmar Resgate" button is never disabled,
  so a second click before the reply sends a second `Redeem(1)`. The model
  makes each click one complete transition, so the "straight after" of
  `Loyalty.RunUnlocksFollowRedemption` covers only redemptions that do not
  overlap.
- Discard.StartDeposit: a lock request that reaches the hardware but gets an
  error status still proceeds, because `fetch` only rejects when nothing
  arrives. The model follows the code.
- Discard.ProcessWeight: an accepted deposit whose unlock request cannot be
  delivered ends as `recusado` with the generic error, although the server
  has already credited it. The model follows the code, and the contract
  states both the verdict and the message.
- Discard.StartDeposit: the error text for a lock request that cannot be
  delivered is set, but the first screen does not render `mensagem`. The
  model records the text.

## Findings

| source | as written | input that shows it | evidently intended | confidence | as-written member | corrected member |
|---|---|---|---|---|---|---|
| components/RegisterModal.tsx:101-108 | a non-ok response is read with `json()`; when that fails, `text()` reads the already consumed body, rejects, and the outer `catch` shows "Erro de conexão: Failed to execute 'text' on 'Response': body stream already read" | status 502 "Bad Gateway" with body `<html>502</html>` | "Erro 502: Bad Gateway" | not executed | Register.StatusMessageUnreachable | Register.Complete |
| app/home/fidelidade/page.tsx:112 | the plural endings are appended to the singular words, giving "Créditos disponíveleis" | a balance of 0 credits | "Créditos disponíveis" | not executed | Loyalty.CreditsLabelMisspelt | Loyalty.CreditsLabel |

=== FILE: discard.dfy ===
/** The discard page: one deposit cycle driven from the browser. The page
    locks the drawer, waits for it to be closed, reads the scale, asks the
    server to validate the weight and, for an accepted deposit that earned
    credits, unlocks the drawer again. Every request the page makes is a
    command in the returned trace; what each request yields is an input. */
module Discard {
  import opened Js
  import opened Http

  datatype Step = Info | Processando | Pesando | Resultado

  datatype Verdict = Aceito | Recusado

  /** `mensagem`. The accepted text interpolates `pesoAtual.toFixed(2)` and the
      credits, kept here as the two values it shows. */
  datatype Message = Text(text: string) | AcceptedNotice(peso: real, creditos: int)

  datatype State = State(
    step: Step,
    peso: Option<real>,
    status: Option<Verdict>,
    mensagem: Message,
    loading: bool)

  /** The requests the page issues: to the hardware (`lock`, `weight`,
      `unlock`) and to the server (`/api/descarte/pesar`). */
  datatype Command = Lock | ReadWeight | Validate(peso: real) | Unlock

  /** `weightData.peso` from the hardware; it may be missing. */
  datatype WeightReply = WeightReply(peso: Option<real>)

  /** The validation reply fields the page reads. */
  datatype Validation = Validation(status: string, creditosGerados: int, motivo: Option<string>)

  /** What the three requests of the weighing step yield. */
  datatype Weighing = Weighing(
    weight: Fetched<WeightReply>,
    validation: Fetched<Validation>,
    unlock: Fetched<()>)

  datatype Event =
    | Start(lock: Fetched<()>)   // `iniciarDescarte`
    | DrawerClosed               // the close wait elapsing
    | Weigh(io: Weighing)        // `processarPeso`
    | NewDiscard                 // `novoDescarte`

  const StartFailed := "Erro ao iniciar descarte. Tente novamente."
  const DrawerLocked := "Gaveta travada. Por favor, abra a gaveta, coloque as PETs com óleo usado e feche a gaveta."
  const WeighingNotice := "Pesando..."
  const DefaultRefusal := "Descarte recusado. Peso mínimo: 3,4kg."
  const ProcessFailed := "Erro ao processar descarte. Tente novamente."
  const AcceptedStatus := "aceito"

  const Initial := State(Info, None, None, Text(""), false)

  /** `iniciarDescarte`, offered by the start button on the first screen while
      it is enabled. A lock request that cannot be delivered leaves the page
      on that screen with an error and `loading` cleared; otherwise the page
      moves on to wait for the drawer. */
  function StartDeposit(s: State, lock: Fetched<()>): (r: (State, seq<Command>))
    requires s.step == Info && !s.loading
    ensures r.1 == [Lock]
    ensures lock.Unreachable? ==> r.0.step == Info && !r.0.loading && r.0.mensagem == Text(StartFailed)
    ensures lock.Responded? ==> r.0.step == Processando && r.0.loading && r.0.mensagem == Text(DrawerLocked)
    ensures r.0.peso == s.peso && r.0.status == s.status
  {
    match lock
    case Unreachable(_) => (s.(mensagem := Text(StartFailed), loading := false), [Lock])
    case Responded(_) => (s.(step := Processando, mensagem := Text(DrawerLocked), loading := true), [Lock])
  }

  /** The close wait elapsing: the page starts weighing. */
  function CloseDrawer(s: State): (r: State)
    requires s.step == Processando
    ensures r.step == Pesando && r.mensagem == Text(WeighingNotice)
    ensures r.peso == s.peso && r.status == s.status && r.loading == s.loading
  {
    s.(step := Pesando, mensagem := Text(WeighingNotice))
  }

  /** `weightData.peso || 0`. */
  function MeasuredWeight(w: WeightReply): (p: real)
    ensures w.peso.None? ==> p == 0.0
    ensures w.peso.Some? ==> p == w.peso.value
  {
    w.peso.GetOr(0.0)
  }

  /** The end of `processarPeso`: the result screen, `loading` cleared. */
  function Finish(s: State): State {
    s.(step := Resultado, loading := false)
  }

  /** The `catch` of `processarPeso`. */
  function Fail(s: State): State {
    Finish(s.(mensagem := Text(ProcessFailed), status := Some(Recusado)))
  }

  /** The validation reply, when the page got as far as reading one: the
      scale answered with JSON and so did the server. */
  function ServerReply(io: Weighing): (v: Option<Validation>)
    ensures v.Some? <==> FetchJson(io.weight).Normal? && FetchJson(io.validation).Normal?
  {
    if FetchJson(io.weight).Normal? && FetchJson(io.validation).Normal? then Some(FetchJson(io.validation).value)
    else None
  }

  /** `processarPeso`: read the scale, have the server validate the weight, and
      unlock the drawer only for an accepted deposit that earned credits. The
      cycle always ends on the result screen with a verdict. The verdict is
      `aceito` exactly when the server said so and the unlock, if one was
      needed, could be delivered: an undeliverable unlock falls into the same
      `catch` as every other failure and shows a refusal. */
  function ProcessWeight(s: State, io: Weighing): (r: (State, seq<Command>))
    ensures r.0.step == Resultado && !r.0.loading && r.0.status.Some?
    ensures Unlock in r.1 <==>
      (ServerReply(io).Some? && ServerReply(io).value.status == AcceptedStatus
       && ServerReply(io).value.creditosGerados > 0)
    ensures r.0.status == Some(Aceito) <==>
      (ServerReply(io).Some? && ServerReply(io).value.status == AcceptedStatus
       && (ServerReply(io).value.creditosGerados <= 0 || io.unlock.Responded?))
    ensures ServerReply(io).Some? && ServerReply(io).value.status != AcceptedStatus ==>
      r.0.mensagem == Text(OrElse(ServerReply(io).value.motivo, DefaultRefusal))
    ensures ServerReply(io).None? ==> r.0.mensagem == Text(ProcessFailed) && r.0.status == Some(Recusado)
    ensures ServerReply(io).Some? && ServerReply(io).value.status == AcceptedStatus
            && ServerReply(io).value.creditosGerados > 0 && io.unlock.Unreachable? ==>
      r.0.mensagem == Text(ProcessFailed) && r.0.status == Some(Recusado)
    ensures r.0.status == Some(Aceito) ==>
      r.0.mensagem == AcceptedNotice(MeasuredWeight(FetchJson(io.weight).value), ServerReply(io).value.creditosGerados)
    ensures FetchJson(io.weight).Normal? ==>
      var p := MeasuredWeight(FetchJson(io.weight).value);
      r.0.peso == Some(p) && |r.1| >= 2 && r.1[1] == Validate(p)
    ensures FetchJson(io.weight).Thrown? ==> r.1 == [ReadWeight] && r.0.peso == s.peso
    ensures 1 <= |r.1| <= 3 && r.1[0] == ReadWeight
    ensures forall i :: 0 <= i < |r.1| && r.1[i] == Unlock ==> i == 2 && r.1[1].Validate?
  {
    match FetchJson(io.weight)
    case Thrown(_) => (Fail(s), [ReadWeight])
    case Normal(w) =>
      var peso := MeasuredWeight(w);
      var s1 := s.(peso := Some(peso));
      var sent := [ReadWeight, Validate(peso)];
      match FetchJson(io.validation)
      case Thrown(_) => (Fail(s1), sent)
      case Normal(d) =>
        if d.status == AcceptedStatus then
          var s2 := s1.(status := Some(Aceito), mensagem := AcceptedNotice(peso, d.creditosGerados));
          if d.creditosGerados > 0 then
            match io.unlock
            case Unreachable(_) => (Fail(s2), sent + [Unlock])
            case Responded(_) => (Finish(s2), sent + [Unlock])
          else (Finish(s2), sent)
        else
          (Finish(s1.(status := Some(Recusado), mensagem := Text(OrElse(d.motivo, DefaultRefusal)))), sent)
  }

  /** `novoDescarte`, offered only on the result screen of an accepted
      deposit: back to the first screen with weight, verdict and message
      cleared. */
  function Restart(s: State): (r: State)
    requires s.step == Resultado && s.status == Some(Aceito)
    ensures r.step == Info && r.peso.None? && r.status.None? && r.mensagem == Text("")
    ensures r.loading == s.loading
  {
    s.(step := Info, peso := None, status := None, mensagem := Text(""))
  }

  /** One event. A control that is not on screen, or is disabled, does nothing:
      in particular the start button, disabled while `loading`, cannot start a
      second cycle while the lock request of the first is pending. The lock is
      only requested from the first screen, the scale only read on the
      weighing screen, and the drawer only unlocked by a weighing. */
  function Next(s: State, e: Event): (r: (State, seq<Command>))
    ensures Lock in r.1 ==> e.Start? && s.step == Info && !s.loading
    ensures e.Start? && (s.step != Info || s.loading) ==> r == (s, [])
    ensures ReadWeight in r.1 ==> e.Weigh? && s.step == Pesando
    ensures Unlock in r.1 ==> e.Weigh? && s.step == Pesando
    ensures e.Weigh? && s.step == Pesando ==> r == ProcessWeight(s, e.io)
    ensures r.1 == [] || e.Start? || e.Weigh?
    ensures e.NewDiscard? && r.0 != s ==> s.step == Resultado && s.status == Some(Aceito)
  {
    match e
    case Start(lock) =>
      if s.step == Info && !s.loading then StartDeposit(s, lock) else (s, [])
    case DrawerClosed =>
      if s.step == Processando then (CloseDrawer(s), []) else (s, [])
    case Weigh(io) =>
      if s.step == Pesando then ProcessWeight(s, io) else (s, [])
    case NewDiscard =>
      if s.step == Resultado && s.status == Some(Aceito) then (Restart(s), []) else (s, [])
  }

  function Run(s: State, es: seq<Event>): (State, seq<Command>)
    decreases |es|
  {
    if es == [] then (s, [])
    else
      var (t, cs) := Next(s, es[0]);
      var (u, ds) := Run(t, es[1..]);
      (u, cs + ds)
  }

  /** What every reachable state satisfies: a verdict is shown exactly on the
      result screen, and `loading` is on exactly while the drawer is locked and
      the page waits. The last clause, a weight only on the result screen,
      holds of this model because `processarPeso` is one transition; the page
      itself sets `peso` and shows it on the weighing screen while the
      validation is pending. */
  predicate Valid(s: State) {
    && (s.status.Some? <==> s.step == Resultado)
    && (s.loading <==> s.step == Processando || s.step == Pesando)
    && (s.peso.Some? ==> s.step == Resultado)
  }

  lemma InitialValid()
    ensures Valid(Initial)
  {
  }

  lemma NextKeepsValid(s: State, e: Event)
    requires Valid(s)
    ensures Valid(Next(s, e).0)
  {
  }

  function Count(t: seq<Command>, c: Command): nat
    decreases |t|
  {
    if t == [] then 0 else (if t[0] == c then 1 else 0) + Count(t[1..], c)
  }

  lemma {:induction false} CountConcat(a: seq<Command>, b: seq<Command>, c: Command)
    ensures Count(a + b, c) == Count(a, c) + Count(b, c)
    decreases |a|
  {
    if a == [] {
      assert a + b == b;
    } else {
      assert (a + b)[0] == a[0];
      assert (a + b)[1..] == a[1..] + b;
      CountConcat(a[1..], b, c);
    }
  }

  /** Whether the page is inside a cycle it started with a lock request. */
  function InCycle(s: State): nat {
    if s.step == Processando || s.step == Pesando then 1 else 0
  }

  /** Every unlock comes straight after a validation request. */
  predicate UnlocksFollowValidation(t: seq<Command>) {
    forall i :: 0 <= i < |t| && t[i] == Unlock ==> i > 0 && t[i - 1].Validate?
  }

  lemma UnlocksFollowValidationConcat(a: seq<Command>, b: seq<Command>)
    requires UnlocksFollowValidation(a) && UnlocksFollowValidation(b)
    requires b != [] ==> b[0] != Unlock
    ensures UnlocksFollowValidation(a + b)
  {
    forall i | 0 <= i < |a + b| && (a + b)[i] == Unlock ensures i > 0 && (a + b)[i - 1].Validate? {
      if i >= |a| {
        assert (a + b)[i] == b[i - |a|];
        assert i - |a| > 0;
        assert (a + b)[i - 1] == b[i - 1 - |a|];
      }
    }
  }

  /** The requests of one weighing: one scale read, then at most one
      validation, then at most one unlock. */
  lemma ProcessWeightCommands(s: State, io: Weighing)
    ensures var cs := ProcessWeight(s, io).1;
      && Count(cs, ReadWeight) == 1 && Count(cs, Lock) == 0
      && UnlocksFollowValidation(cs) && cs[0] != Unlock
  {
    var cs := ProcessWeight(s, io).1;
    if |cs| == 1 {
      assert cs[1..] == [];
    } else {
      var p := cs[1].peso;
      assert cs[1..] == [Validate(p)] + cs[2..];
      assert Count(cs[1..], ReadWeight) == Count(cs[2..], ReadWeight);
      assert Count(cs[1..], Lock) == Count(cs[2..], Lock);
      if |cs| == 2 {
        assert cs[2..] == [];
      } else {
        assert cs == [ReadWeight, Validate(p), Unlock];
        assert cs[2..][1..] == [];
        assert Count(cs[2..], ReadWeight) == 0 && Count(cs[2..], Lock) == 0;
      }
    }
  }

  /** One event from a valid state: a scale read only inside a cycle a lock
      request opened, and every unlock straight after a validation. */
  lemma NextCommands(s: State, e: Event)
    requires Valid(s)
    ensures var (t, cs) := Next(s, e);
      && Count(cs, ReadWeight) + InCycle(t) <= Count(cs, Lock) + InCycle(s)
      && UnlocksFollowValidation(cs)
      && (cs != [] ==> cs[0] != Unlock)
  {
    match e
    case Start(lock) =>
    case DrawerClosed =>
    case Weigh(io) =>
      if s.step == Pesando {
        ProcessWeightCommands(s, io);
      }
    case NewDiscard =>
  }

  /** Over any run from a valid state: the scale is read at most once per lock
      request (a lock is counted even when it cannot be delivered), and every
      unlock comes straight after a validation request. */
  lemma {:induction false} RunCommandsOrdered(s: State, es: seq<Event>)
    requires Valid(s)
    ensures var (t, cs) := Run(s, es);
      && Valid(t)
      && Count(cs, ReadWeight) + InCycle(t) <= Count(cs, Lock) + InCycle(s)
      && UnlocksFollowValidation(cs)
      && (cs != [] ==> cs[0] != Unlock)
    decreases |es|
  {
    if es != [] {
      var (t, cs) := Next(s, es[0]);
      NextKeepsValid(s, es[0]);
      NextCommands(s, es[0]);
      RunCommandsOrdered(t, es[1..]);
      var (u, ds) := Run(t, es[1..]);
      assert Run(s, es) == (u, cs + ds);
      CountConcat(cs, ds, ReadWeight);
      CountConcat(cs, ds, Lock);
      UnlocksFollowValidationConcat(cs, ds);
      assert cs + ds != [] ==> (cs + ds)[0] != Unlock by {
        if cs != [] { assert (cs + ds)[0] == cs[0]; } else { assert cs + ds == ds; }
      }
    }
  }

  /** From the first screen, any run issues no more weighings than lock
      requests, and no unlock that is not straight after a validation. */
  lemma RunFromInitial(es: seq<Event>)
    ensures Count(Run(Initial, es).1, ReadWeight) <= Count(Run(Initial, es).1, Lock)
    ensures UnlocksFollowValidation(Run(Initial, es).1)
  {
    InitialValid();
    RunCommandsOrdered(Initial, es);
  }

  /** "Novo descarte" is only on screen after an accepted deposit: from any
      other screen or verdict the event leaves the page as it is. */
  lemma NewDiscardOnlyAfterAcceptance(s: State)
    ensures Next(s, NewDiscard).0 != s ==> s.step == Resultado && s.status == Some(Aceito)
    ensures s.step == Resultado && s.status == Some(Aceito) ==> Next(s, NewDiscard).0.step == Info
  {
  }

  /** A rejected deposit never unlocks the drawer, whatever the other
      requests yield. */
  lemma RefusalNeverUnlocks(s: State, io: Weighing)
    requires FetchJson(io.validation).Normal? && FetchJson(io.validation).value.status != AcceptedStatus
    ensures Unlock !in ProcessWeight(s, io).1
    ensures ProcessWeight(s, io).0.status == Some(Recusado)
  {
  }
}

=== FILE: http.dfy ===
/** The outcome of a `fetch` call, abstracted to what the pages observe: the
    request either never reaches a server, or it yields a response whose body
    may be read once, as JSON or as text. */
module Http {
  import opened Js

  /** The two ways the pages read a response body. */
  datatype Reader = JsonReader | TextReader

  /** An exception as a page's `catch` block receives it. */
  datatype Exception =
    | NetworkFailure(message: string)  // `fetch` itself rejected
    | InvalidJson                      // `response.json()` found a body that is not JSON
    | BodyAlreadyUsed(reader: Reader)  // a read of a body that an earlier read consumed

  /** `err.message`. The wording for the two body errors is engine specific.
      A second read uses a Chromium-based browser's wording; the JSON parse
      error, whose wording quotes the offending body, is abbreviated. */
  function ExceptionMessage(e: Exception): string {
    match e
    case NetworkFailure(m) => m
    case InvalidJson => "Unexpected token in JSON"
    case BodyAlreadyUsed(JsonReader) => "Failed to execute 'json' on 'Response': body stream already read"
    case BodyAlreadyUsed(TextReader) => "Failed to execute 'text' on 'Response': body stream already read"
  }

  /** The settled value of an awaited promise. */
  datatype Completion<T> = Normal(value: T) | Thrown(error: Exception)

  /** A response whose body is `text`; when that text is JSON it decodes to `json`. */
  datatype Response<J> = Response(status: int, statusText: string, text: string, json: Option<J>) {

    /** `response.ok`: the status is an ok status, 200 to 299 inclusive, as
        the Fetch Standard defines it. */
    predicate Ok() {
      200 <= status <= 299
    }
  }

  /** `await fetch(...)`. */
  datatype Fetched<J> = Unreachable(message: string) | Responded(response: Response<J>)

  /** `await response.json()` on a body that earlier reads have (`used`) or have
      not consumed. Either way the body is consumed afterwards. */
  function ReadJson<J>(r: Response<J>, used: bool): (c: Completion<J>)
    ensures used ==> c == Thrown(BodyAlreadyUsed(JsonReader))
    ensures !used ==> (c.Normal? <==> r.json.Some?)
    ensures c.Normal? ==> Some(c.value) == r.json
    ensures !used && r.json.None? ==> c == Thrown(InvalidJson)
  {
    if used then Thrown(BodyAlreadyUsed(JsonReader))
    else if r.json.Some? then Normal(r.json.value)
    else Thrown(InvalidJson)
  }

  /** `await response.text()`, under the same one-read rule. */
  function ReadText<J>(r: Response<J>, used: bool): (c: Completion<string>)
    ensures used <==> c.Thrown?
    ensures c.Thrown? ==> c.error == BodyAlreadyUsed(TextReader)
    ensures c.Normal? ==> c.value == r.text
  {
    if used then Thrown(BodyAlreadyUsed(TextReader)) else Normal(r.text)
  }

  /** `await fetch(...)` followed by `await response.json()` inside one
      `try`: the JSON value, or the exception the `catch` receives. */
  function FetchJson<J>(f: Fetched<J>): (c: Completion<J>)
    ensures c.Normal? <==> f.Responded? && f.response.json.Some?
    ensures c.Normal? ==> Some(c.value) == f.response.json
  {
    match f
    case Unreachable(m) => Thrown(NetworkFailure(m))
    case Responded(r) => ReadJson(r, false)
  }
}

=== FILE: js.dfy ===
/** The small part of JavaScript's string and value semantics that the kiosk
    forms rely on: the `\d` character class, `replace(/\D/g, '')`,
    `slice(0, n)`, the `a || b` default for possibly missing strings and the
    decimal rendering of a number inside a template literal. */
module Js {

  datatype Option<+T> = None | Some(value: T) {

    /** `x || d` on a numeric or array field that may be missing. */
    function GetOr(default: T): T {
      match this
      case Some(v) => v
      case None => default
    }
  }

  /** Membership in `\d`, which is `[0-9]`. */
  predicate IsDigit(c: char) {
    '0' <= c <= '9'
  }

  predicate AllDigits(s: string) {
    forall i :: 0 <= i < |s| ==> IsDigit(s[i])
  }

  /** `s.replace(/\D/g, '')`: every character outside `\d` is dropped and the
      digits keep their order. */
  function Digits(s: string): (r: string)
    ensures AllDigits(r)
    ensures |r| <= |s|
    ensures AllDigits(s) <==> r == s
    decreases |s|
  {
    if s == [] then []
    else (if IsDigit(s[0]) then [s[0]] else []) + Digits(s[1..])
  }

  /** Removing non-digits distributes over concatenation, so `Digits` keeps
      exactly the digits of its input, in order. */
  lemma {:induction false} DigitsConcat(a: string, b: string)
    ensures Digits(a + b) == Digits(a) + Digits(b)
    decreases |a|
  {
    if a == [] {
      assert a + b == b;
    } else {
      assert (a + b)[0] == a[0];
      assert (a + b)[1..] == a[1..] + b;
      DigitsConcat(a[1..], b);
    }
  }

  /** A string made only of non-digits contributes nothing. */
  lemma DigitsOfLiteral(s: string)
    requires forall i :: 0 <= i < |s| ==> !IsDigit(s[i])
    ensures Digits(s) == []
    decreases |s|
  {
    if s != [] {
      DigitsOfLiteral(s[1..]);
    }
  }

  /** `s.slice(0, n)` for `n >= 0`: the longest prefix of `s` of length at most `n`. */
  function Prefix(s: string, n: nat): (r: string)
    ensures r <= s
    ensures |r| == if |s| <= n then |s| else n
  {
    if |s| <= n then s else s[..n]
  }

  /** `a || b` where `a` is a string field that may be missing: a missing or
      empty string is falsy and yields `b`. The result is one of the two, and
      never blank when the default is not. */
  function OrElse(a: Option<string>, b: string): (r: string)
    ensures a.Some? && a.value != "" ==> r == a.value
    ensures a.None? || a.value == "" ==> r == b
    ensures r == b || (a.Some? && r == a.value)
    ensures b != "" ==> r != ""
  {
    if a.Some? && a.value != "" then a.value else b
  }

  /** The decimal digits of `n`, as `${n}` renders a non-negative integer. */
  function Decimal(n: nat): (r: string)
    ensures |r| >= 1 && AllDigits(r)
    ensures n < 10 ==> |r| == 1
  {
    if n < 10 then [(('0' as int) + n) as char]
    else Decimal(n / 10) + Decimal(n % 10)
  }

  /** `${i}` for an integer. */
  function IntString(i: int): (r: string)
    ensures |r| >= 1
    ensures i >= 0 <==> AllDigits(r)
  {
    if i >= 0 then Decimal(i)
    else
      var r := "-" + Decimal(-i);
      assert !IsDigit(r[0]);
      r
  }

  function DigitValue(c: char): (v: nat)
    requires IsDigit(c)
    ensures v < 10
  {
    (c as int) - ('0' as int)
  }

  /** The value a string of decimal digits denotes, most significant first
      (`Number(s)` on such a string). */
  function ParseDecimal(s: string): (v: nat)
    requires AllDigits(s)
    decreases |s|
  {
    if s == [] then 0 else ParseDecimal(s[..|s| - 1]) * 10 + DigitValue(s[|s| - 1])
  }

  /** `Number(s)` on what `IntString` produces. */
  function ParseInt(s: string): (v: int)
    requires |s| >= 1
    requires AllDigits(s) || (s[0] == '-' && AllDigits(s[1..]))
  {
    if s[0] == '-' then -(ParseDecimal(s[1..]) as int) else ParseDecimal(s)
  }

  /** Rendering a natural number and reading it back gives the number. */
  lemma {:induction false} DecimalRoundTrip(n: nat)
    ensures ParseDecimal(Decimal(n)) == n
    decreases n
  {
    var r := Decimal(n);
    if n < 10 {
      assert r[..0] == [];
    } else {
      var a, b := Decimal(n / 10), Decimal(n % 10);
      assert r == a + b;
      assert r[..|r| - 1] == a;
      assert r[|r| - 1] == b[0];
      assert b[..0] == [];
      DecimalRoundTrip(n / 10);
      DecimalRoundTrip(n % 10);
    }
  }

  /** Rendering an integer and reading it back gives the integer. */
  lemma IntStringRoundTrip(i: int)
    ensures var r := IntString(i);
      (AllDigits(r) || (r[0] == '-' && AllDigits(r[1..]))) && ParseInt(r) == i
  {
    if i >= 0 {
      DecimalRoundTrip(i);
    } else {
      var r := IntString(i);
      assert r[1..] == Decimal(-i);
      DecimalRoundTrip(-i);
    }
  }
}

=== FILE: login.dfy ===
/** The login modal: a masked CPF, a four-digit PIN, and one
    `POST /api/auth/login` whose reply either opens a session (token and
    user written to local storage, `onSuccess` called) or shows an error. */
module Login {
  import opened Js
  import opened Http
  import opened Masks

  datatype Form = Form(cpf: string, senha: string, loading: bool, error: string)

  datatype LoginRequest = LoginRequest(cpf: string, senha: string)

  /** The reply fields the modal reads; `user` stands for `JSON.stringify(data.user)`. */
  datatype LoginReply = LoginReply(token: string, user: string, message: Option<string>)

  /** The two local-storage entries a successful login writes. */
  datatype Session = Session(token: string, user: string)

  datatype Input = Cpf(value: string) | Senha(value: string)

  datatype Event =
    | Type(input: Input)
    | Submit                             // `handleSubmit` up to the `fetch`
    | Reply(fetched: Fetched<LoginReply>)  // `handleSubmit` after the `fetch` settles

  datatype Effect = NoEffect | Send(request: LoginRequest) | SignedIn(session: Session)

  const LoginFailed := "Erro ao fazer login"
  const ConnectionError := "Erro de conexão. Tente novamente."

  const Initial := Form("", "", false, "")

  predicate WithinMaxLength(input: Input) {
    match input
    case Cpf(v) => |v| <= CpfMaxLength
    case Senha(v) => |v| <= PinLength
  }

  /** The masked inputs hold values their handlers would leave as they are. */
  predicate Canonical(f: Form) {
    FormatCpf(f.cpf) == f.cpf && |f.cpf| <= CpfMaxLength && SanitizePin(f.senha) == f.senha
  }

  /** The two `onChange` handlers. The PIN field only ever holds at most four
      digits, and the CPF field never loses or gains a digit of what was typed. */
  function Edit(f: Form, input: Input): (r: Form)
    ensures input.Senha? ==> AllDigits(r.senha) && |r.senha| <= PinLength && r.senha <= Digits(input.value)
    ensures input.Senha? ==> r.cpf == f.cpf
    ensures input.Cpf? ==> Digits(r.cpf) == Digits(input.value) && r.senha == f.senha
    ensures input.Senha? ==>
      r.senha == SanitizePin(input.value) && |r.senha| == (if |Digits(input.value)| <= PinLength then |Digits(input.value)| else PinLength)
    ensures input.Cpf? ==> r.cpf == FormatCpf(input.value)
    ensures Canonical(f) && WithinMaxLength(input) ==> Canonical(r)
    ensures r.loading == f.loading && r.error == f.error
  {
    match input
    case Cpf(v) =>
      FormatCpfIdempotent(v);
      f.(cpf := FormatCpf(v))
    case Senha(v) =>
      SanitizePinIdempotent(v);
      f.(senha := SanitizePin(v))
  }

  /** `handleSubmit` up to the request: the error is cleared, `loading` is set
      and the CPF goes out as digits only. While a request is pending the
      submit button is disabled, so nothing is sent. */
  function Begin(f: Form): (r: (Form, Option<LoginRequest>))
    ensures r.1.Some? <==> !f.loading
    ensures r.1.Some? ==> r.1.value.cpf == Digits(f.cpf) && AllDigits(r.1.value.cpf) && r.1.value.senha == f.senha
    ensures r.1.Some? ==> r.0 == f.(loading := true, error := "")
    ensures r.1.None? ==> r.0 == f
  {
    if f.loading then (f, None)
    else (f.(error := "", loading := true), Some(LoginRequest(Digits(f.cpf), f.senha)))
  }

  /** `handleSubmit` after the `fetch`: an ok reply stores both the token and
      the user and signals success; a non-ok reply stores nothing and shows
      the server's message or "Erro ao fazer login"; an unreachable server or
      a body that is not JSON stores nothing and shows the connection error.
      `loading` is false afterwards on every path. */
  function Complete(f: Form, fetched: Fetched<LoginReply>): (r: (Form, Option<Session>))
    ensures !r.0.loading
    ensures r.1.Some? <==> fetched.Responded? && fetched.response.Ok() && fetched.response.json.Some?
    ensures r.1.Some? ==> r.1.value == Session(fetched.response.json.value.token, fetched.response.json.value.user)
    ensures r.1.Some? ==> r.0.error == f.error
    ensures fetched.Responded? && !fetched.response.Ok() && fetched.response.json.Some? ==>
      r.0.error == OrElse(fetched.response.json.value.message, LoginFailed)
    ensures FetchJson(fetched).Thrown? ==> r.0.error == ConnectionError
    ensures r.0.cpf == f.cpf && r.0.senha == f.senha
  {
    match FetchJson(fetched)
    case Thrown(_) => (f.(error := ConnectionError, loading := false), None)
    case Normal(d) =>
      if fetched.response.Ok() then (f.(loading := false), Some(Session(d.token, d.user)))
      else (f.(error := OrElse(d.message, LoginFailed), loading := false), None)
  }

  function Next(f: Form, e: Event): (r: (Form, Effect))
    ensures r.1.Send? <==> e.Submit? && !f.loading
    ensures r.1.Send? ==> AllDigits(r.1.request.cpf) && r.1.request.cpf == Digits(f.cpf)
    ensures r.1.SignedIn? ==> e.Reply? && !r.0.loading
    ensures Canonical(f) && (e.Type? ==> WithinMaxLength(e.input)) ==> Canonical(r.0)
  {
    match e
    case Type(input) => (Edit(f, input), NoEffect)
    case Submit =>
      var (g, q) := Begin(f);
      (g, if q.Some? then Send(q.value) else NoEffect)
    case Reply(fetched) =>
      var (g, s) := Complete(f, fetched);
      (g, if s.Some? then SignedIn(s.value) else NoEffect)
  }

  /** A submission followed by its reply: exactly one request, whose CPF is
      the digits of the last value typed into the CPF input, and a session
      exactly when the server answered ok with JSON. */
  lemma SubmitThenReply(f: Form, typed: string, fetched: Fetched<LoginReply>)
    requires !f.loading
    ensures var g := Edit(f, Cpf(typed));
      var (h, x) := Next(g, Submit);
      var (k, y) := Next(h, Reply(fetched));
      && x == Send(LoginRequest(Digits(typed), f.senha))
      && !k.loading
      && (y.SignedIn? <==> fetched.Responded? && fetched.response.Ok() && fetched.response.json.Some?)
      && (y.NoEffect? ==> k.error != "")
  {
    var g := Edit(f, Cpf(typed));
    var (h, x) := Next(g, Submit);
    assert h.error == "";
    var (k, y) := Complete(h, fetched);
    if y.None? {
      match FetchJson(fetched)
      case Thrown(_) =>
        assert k.error == ConnectionError;
      case Normal(d) =>
        assert k.error == OrElse(d.message, LoginFailed);
    }
  }
}

=== FILE: loyalty.dfy ===
/** The loyalty page: the credit balance and the history loaded together
    from the server, and the redemption of one credit for a bottle of oil,
    which unlocks the drawer when the server accepts it. Requests and alerts
    are commands in the returned trace; what each request yields is an input. */
module Loyalty {
  import opened Js
  import opened Http

  /** One history entry; `tipo` is `descarte` for an earning and `resgate`
      for a redemption. */
  datatype Item = Item(id: string, tipo: string, data: string, creditos: int, descricao: string)

  datatype Page = Page(creditos: int, historico: seq<Item>, loading: bool, showResgate: bool)

  /** `creditosData.creditos`, which may be missing. */
  datatype BalanceData = BalanceData(creditos: Option<int>)

  /** `historicoData.historico`, which may be missing. */
  datatype HistoryData = HistoryData(historico: Option<seq<Item>>)

  /** `data.message` of the redemption reply. */
  datatype RedeemReply = RedeemReply(message: Option<string>)

  datatype Command =
    | FetchBalance              // `GET /api/fidelidade/creditos`
    | FetchHistory              // `GET /api/fidelidade/historico`
    | Redeem(creditos: int)     // `POST /api/fidelidade/resgatar`
    | Alert(text: string)
    | Unlock                    // `POST /hardware/unlock`

  datatype Event =
    | Loaded(balance: Fetched<BalanceData>, history: Fetched<HistoryData>)  // `carregarDados` settling
    | OpenRedeem                                                           // "Resgatar 1 óleo de 500ml"
    | CloseRedeem                                                          // "Cancelar" or the overlay
    | ConfirmRedeem(reply: Fetched<RedeemReply>, unlock: Fetched<()>)      // `handleResgatar`

  const NeedCredit := "Você precisa de pelo menos 1 crédito para resgatar."
  const RedeemSucceeded := "Resgate realizado com sucesso! A gaveta foi destravada para retirada do óleo."
  const RedeemFailed := "Erro ao realizar resgate."
  const ConnectionError := "Erro de conexão. Tente novamente."

  /** The requests `carregarDados` issues, on mount and after a redemption. */
  const Reload := [FetchBalance, FetchHistory]

  const Initial := Page(0, [], true, false)

  /** `carregarDados` once both requests settle. Both bodies are read as JSON
      whatever the status; only when both reads succeed are the balance
      (`creditos || 0`) and the history (`historico || []`) replaced, and
      always together. `loading` ends on every path. */
  function Load(p: Page, balance: Fetched<BalanceData>, history: Fetched<HistoryData>): (r: Page)
    ensures !r.loading && r.showResgate == p.showResgate
    ensures FetchJson(balance).Normal? && FetchJson(history).Normal? ==>
      && r.creditos == FetchJson(balance).value.creditos.GetOr(0)
      && r.historico == FetchJson(history).value.historico.GetOr([])
    ensures FetchJson(balance).Thrown? || FetchJson(history).Thrown? ==>
      r.creditos == p.creditos && r.historico == p.historico
  {
    match (FetchJson(balance), FetchJson(history))
    case (Normal(b), Normal(h)) =>
      p.(creditos := b.creditos.GetOr(0), historico := h.historico.GetOr([]), loading := false)
    case _ => p.(loading := false)
  }

  /** Whether the redeem button is on screen: the page has loaded and shows at
      least one credit. */
  predicate RedeemOffered(p: Page) {
    !p.loading && p.creditos >= 1
  }

  /** `handleResgatar`. Without a credit only an alert is shown. Otherwise one
      credit is requested; an ok reply is announced, the drawer is unlocked and,
      if the unlock request is delivered, the dialog closes and the data is
      reloaded; a refusal alerts the server's message or the default; a
      failure to reach the server, a body that is not JSON or an undeliverable
      unlock alerts the connection error. The balance shown does not change
      until the reload settles. */
  function Redemption(p: Page, reply: Fetched<RedeemReply>, unlock: Fetched<()>): (r: (Page, seq<Command>))
    ensures r.0.creditos == p.creditos && r.0.historico == p.historico && r.0.loading == p.loading
    ensures p.creditos < 1 ==> r == (p, [Alert(NeedCredit)])
    ensures p.creditos >= 1 ==> |r.1| >= 2 && r.1[0] == Redeem(1)
    ensures Unlock in r.1 <==>
      (p.creditos >= 1 && reply.Responded? && reply.response.Ok() && reply.response.json.Some?)
    ensures !r.0.showResgate <==> !p.showResgate || (Unlock in r.1 && unlock.Responded?)
    ensures FetchBalance in r.1 <==> Unlock in r.1 && unlock.Responded?
    ensures p.creditos >= 1 && FetchJson(reply).Thrown? ==> r.1 == [Redeem(1), Alert(ConnectionError)]
    ensures p.creditos >= 1 && reply.Responded? && !reply.response.Ok() && reply.response.json.Some? ==>
      r.1 == [Redeem(1), Alert(OrElse(reply.response.json.value.message, RedeemFailed))]
    ensures Unlock in r.1 && unlock.Unreachable? ==> r.1[|r.1| - 1] == Alert(ConnectionError)
    ensures forall c :: c in r.1 && c.Alert? ==> c.text != ""
  {
    if p.creditos < 1 then (p, [Alert(NeedCredit)])
    else
      match FetchJson(reply)
      case Thrown(_) => (p, [Redeem(1), Alert(ConnectionError)])
      case Normal(d) =>
        if reply.response.Ok() then
          var announced := [Redeem(1), Alert(RedeemSucceeded), Unlock];
          match unlock
          case Unreachable(_) => (p, announced + [Alert(ConnectionError)])
          case Responded(_) => (p.(showResgate := false), announced + Reload)
        else (p, [Redeem(1), Alert(OrElse(d.message, RedeemFailed))])
  }

  /** One event. Nothing is on screen while loading; the redeem button only
      with a credit; the dialog's buttons only while it is open. */
  function Next(p: Page, e: Event): (r: (Page, seq<Command>))
    ensures Redeem(1) in r.1 ==> e.ConfirmRedeem? && p.showResgate && p.creditos >= 1
    ensures forall c :: c in r.1 && c.Redeem? ==> c.creditos == 1
    ensures r.0.showResgate && !p.showResgate ==> e.OpenRedeem? && RedeemOffered(p)
  {
    match e
    case Loaded(b, h) => (Load(p, b, h), [])
    case OpenRedeem => if RedeemOffered(p) then (p.(showResgate := true), []) else (p, [])
    case CloseRedeem => if !p.loading && p.showResgate then (p.(showResgate := false), []) else (p, [])
    case ConfirmRedeem(reply, unlock) =>
      if !p.loading && p.showResgate then Redemption(p, reply, unlock) else (p, [])
  }

  function Run(p: Page, es: seq<Event>): (Page, seq<Command>)
    decreases |es|
  {
    if es == [] then (p, [])
    else
      var (q, cs) := Next(p, es[0]);
      var (t, ds) := Run(q, es[1..]);
      (t, cs + ds)
  }

  /** Every unlock is straight after the success alert, which is straight
      after a request to redeem one credit. */
  predicate UnlocksFollowRedemption(t: seq<Command>) {
    forall i :: 0 <= i < |t| && t[i] == Unlock ==>
      i >= 2 && t[i - 1] == Alert(RedeemSucceeded) && t[i - 2] == Redeem(1)
  }

  lemma UnlocksFollowRedemptionConcat(a: seq<Command>, b: seq<Command>)
    requires UnlocksFollowRedemption(a) && UnlocksFollowRedemption(b)
    ensures UnlocksFollowRedemption(a + b)
  {
    forall i | 0 <= i < |a + b| && (a + b)[i] == Unlock
      ensures i >= 2 && (a + b)[i - 1] == Alert(RedeemSucceeded) && (a + b)[i - 2] == Redeem(1)
    {
      if i >= |a| {
        assert (a + b)[i] == b[i - |a|];
        assert (a + b)[i - 1] == b[i - 1 - |a|];
        assert (a + b)[i - 2] == b[i - 2 - |a|];
      }
    }
  }

  lemma NextUnlocksFollowRedemption(p: Page, e: Event)
    ensures UnlocksFollowRedemption(Next(p, e).1)
  {
    var cs := Next(p, e).1;
    if e.ConfirmRedeem? && !p.loading && p.showResgate && Unlock in cs {
      assert cs[..3] == [Redeem(1), Alert(RedeemSucceeded), Unlock];
      assert cs[3..] == [Alert(ConnectionError)] || cs[3..] == Reload;
      assert forall i :: 3 <= i < |cs| ==> cs[i] == cs[3..][i - 3];
    }
  }

  /** In any run, the drawer is only ever unlocked right after the server
      accepted a one-credit redemption and the user was told so. */
  lemma {:induction false} RunUnlocksFollowRedemption(p: Page, es: seq<Event>)
    ensures UnlocksFollowRedemption(Run(p, es).1)
    decreases |es|
  {
    if es != [] {
      var (q, cs) := Next(p, es[0]);
      NextUnlocksFollowRedemption(p, es[0]);
      RunUnlocksFollowRedemption(q, es[1..]);
      UnlocksFollowRedemptionConcat(cs, Run(q, es[1..]).1);
    }
  }

  /** A balance reply without a positive `creditos` (missing, zero or
      negative) leaves the page without the redeem button, whatever the
      history holds: opening the dialog then does nothing. */
  lemma LoadWithoutCreditOffersNothing(p: Page, balance: Fetched<BalanceData>, history: Fetched<HistoryData>)
    requires FetchJson(balance).Normal? && FetchJson(history).Normal?
    requires FetchJson(balance).value.creditos.GetOr(0) < 1
    ensures !RedeemOffered(Load(p, balance, history))
    ensures var q := Load(p, balance, history); Next(q, OpenRedeem).0 == q
  {
  }

  /** An event that cannot bring a credit into the page: any event but a
      load whose two replies parse with a positive balance. */
  predicate BringsNoCredit(e: Event) {
    e.Loaded? && FetchJson(e.balance).Normal? && FetchJson(e.history).Normal? ==>
      FetchJson(e.balance).value.creditos.GetOr(0) < 1
  }

  /** Starting without a credit with the dialog closed, a run in which no
      load delivers a positive balance never requests a redemption and never
      unlocks the drawer: missing or zero `creditos` never lead to a
      redemption. */
  lemma {:induction false} RunWithoutCreditNeverRedeems(p: Page, es: seq<Event>)
    requires p.creditos < 1 && !p.showResgate
    requires forall i :: 0 <= i < |es| ==> BringsNoCredit(es[i])
    ensures Redeem(1) !in Run(p, es).1 && Unlock !in Run(p, es).1
    ensures Run(p, es).0.creditos < 1 && !Run(p, es).0.showResgate
    decreases |es|
  {
    if es != [] {
      var (q, cs) := Next(p, es[0]);
      assert cs == [];
      RunWithoutCreditNeverRedeems(q, es[1..]);
      assert Run(p, es).1 == Run(q, es[1..]).1;
    }
  }

  /** From the initial page, missing or zero balances never lead to a
      redemption request or an unlock. */
  lemma InitialWithoutCreditNeverRedeems(es: seq<Event>)
    requires forall i :: 0 <= i < |es| ==> BringsNoCredit(es[i])
    ensures Redeem(1) !in Run(Initial, es).1 && Unlock !in Run(Initial, es).1
  {
    RunWithoutCreditNeverRedeems(Initial, es);
  }

  /** The dialog can only be opened through the button, which is shown
      exactly when the page holds at least one credit. */
  lemma OpenRedeemNeedsCredit(p: Page)
    requires !p.showResgate
    ensures Next(p, OpenRedeem).0.showResgate <==> !p.loading && p.creditos >= 1
  {
  }

  /** The amount column of a history entry: `+` for an earning, `-` for
      anything else, followed by `${item.creditos}`. */
  function ShownAmount(item: Item): (s: string)
    ensures |s| >= 2
  {
    (if item.tipo == "descarte" then "+" else "-") + IntString(item.creditos)
  }

  /** The amount column reads back as the entry: its sign tells an earning
      from a redemption and the rest is the number of credits. */
  lemma ShownAmountReadsBack(item: Item)
    ensures var s := ShownAmount(item);
      && (s[0] == '+' <==> item.tipo == "descarte")
      && (AllDigits(s[1..]) || (s[1] == '-' && AllDigits(s[2..])))
      && ParseInt(s[1..]) == item.creditos
  {
    var s := ShownAmount(item);
    assert s[1..] == IntString(item.creditos);
    IntStringRoundTrip(item.creditos);
  }

  /** The label under the balance as written: the plural endings are appended
      to the singular words, so `disponível` becomes `disponíveleis`. */
  function CreditsLabelAsWritten(c: int): string {
    "Crédito" + (if c != 1 then "s" else "") + " disponível" + (if c != 1 then "eis" else "")
  }

  /** The label as Portuguese spells it: singular exactly for one credit. */
  function CreditsLabel(c: int): (r: string)
    ensures r == "Crédito disponível" <==> c == 1
    ensures c != 1 ==> r == "Créditos disponíveis"
  {
    if c == 1 then "Crédito disponível" else "Créditos disponíveis"
  }

  /** The label as written misspells the plural for every count but one. */
  lemma CreditsLabelMisspelt(c: int)
    requires c != 1
    ensures CreditsLabelAsWritten(c) == "Créditos disponíveleis"
    ensures CreditsLabelAsWritten(c) != CreditsLabel(c)
  {
    assert CreditsLabelAsWritten(c)[19] != CreditsLabel(c)[19];
  }

  /** The two labels agree exactly for one credit. */
  lemma CreditsLabelAgreesOnlyOnOne(c: int)
    ensures CreditsLabelAsWritten(c) == CreditsLabel(c) <==> c == 1
  {
    if c != 1 {
      CreditsLabelMisspelt(c);
    }
  }
}

=== FILE: masks.dfy ===
/** The input canonicalisers shared by the registration, login and profile
    screens: `formatCPF`, `formatPhone` and the four-digit PIN sanitiser.

    Both formatters strip the input to its digits and, when at most eleven
    remain, apply `numbers.replace(pattern, template)` where the pattern is a
    chain of `(\d{k})` groups and the replacement interleaves literals with
    `$1`, `$2`, ... The pattern is neither anchored nor global, so it rewrites
    the leftmost run of digits as long as the groups together, and nothing
    else; on a digits-only string of at most eleven characters that happens
    only when there are exactly eleven. */
module Masks {
  import opened Js

  /** One `(\d{width})` group of a pattern and the literal its template
      writes before the group's `$n`. */
  datatype Group = Group(lead: string, width: nat)

  type Mask = seq<Group>

  /** `(\d{3})(\d{3})(\d{3})(\d{2})` with `'$1.$2.$3-$4'`. */
  const CpfMask: Mask := [Group("", 3), Group(".", 3), Group(".", 3), Group("-", 2)]

  /** `(\d{2})(\d{5})(\d{4})` with `'($1) $2-$3'`. */
  const PhoneMask: Mask := [Group("(", 2), Group(") ", 5), Group("-", 4)]

  /** The bound in `numbers.length <= 11` shared by both formatters. */
  const MaxDigits := 11

  /** The number of PIN digits kept by `.slice(0, 4)`, which is also the PIN
      inputs' `maxLength={4}`. */
  const PinLength := 4

  /** The CPF inputs' `maxLength={14}`: the length of `DDD.DDD.DDD-DD`. */
  const CpfMaxLength := 14

  /** The number of characters the whole pattern matches. */
  function Width(m: Mask): nat
    decreases |m|
  {
    if m == [] then 0 else m[0].width + Width(m[1..])
  }

  /** No template literal contains a digit. */
  predicate DigitFreeLeads(m: Mask) {
    forall i, j :: 0 <= i < |m| && 0 <= j < |m[i].lead| ==> !IsDigit(m[i].lead[j])
  }

  /** The template with `$1`, `$2`, ... bound to consecutive slices of `d`. */
  function Fill(m: Mask, d: string): (r: string)
    requires |d| == Width(m)
    decreases |m|
  {
    if m == [] then []
    else m[0].lead + d[..m[0].width] + Fill(m[1..], d[m[0].width..])
  }

  /** The first lead of a digit-free template has no digits, and the groups
      after it are digit-free too. */
  lemma DigitFreeLeadsTail(m: Mask)
    requires m != [] && DigitFreeLeads(m)
    ensures Digits(m[0].lead) == [] && DigitFreeLeads(m[1..])
  {
    DigitsOfLiteral(m[0].lead);
    forall i, j | 0 <= i < |m[1..]| && 0 <= j < |m[1..][i].lead|
      ensures !IsDigit(m[1..][i].lead[j])
    {
      assert m[1..][i] == m[i + 1];
    }
  }

  /** Both halves of a digits-only string are digits only, and they make it up. */
  lemma AllDigitsSplit(d: string, w: nat)
    requires AllDigits(d) && w <= |d|
    ensures d[..w] + d[w..] == d
    ensures AllDigits(d[..w]) && AllDigits(d[w..])
    ensures Digits(d[..w]) == d[..w] && Digits(d[w..]) == d[w..]
  {
    assert AllDigits(d[w..]) by {
      forall k | 0 <= k < |d[w..]| ensures IsDigit(d[w..][k]) {
        assert d[w..][k] == d[w + k];
      }
    }
    assert AllDigits(d[..w]) by {
      forall k | 0 <= k < w ensures IsDigit(d[..w][k]) {
        assert d[..w][k] == d[k];
      }
    }
  }

  /** A digit-free lead drops out of the digits of a group and what follows. */
  lemma DigitsOfGroup(lead: string, x: string, rest: string, whole: string)
    requires whole == lead + x + rest
    requires Digits(lead) == [] && Digits(x) == x
    ensures Digits(whole) == x + Digits(rest)
  {
    calc {
      Digits(whole);
      { DigitsConcat(lead + x, rest); }
      Digits(lead + x) + Digits(rest);
      { DigitsConcat(lead, x); assert [] + x == x; }
      x + Digits(rest);
    }
  }

  /** Filling a template with digits and removing the non-digits again gives
      back the digits. */
  lemma {:induction false} DigitsOfFill(m: Mask, d: string)
    requires |d| == Width(m) && AllDigits(d) && DigitFreeLeads(m)
    ensures Digits(Fill(m, d)) == d
    decreases |m|
  {
    if m != [] {
      var w := m[0].width;
      DigitFreeLeadsTail(m);
      AllDigitsSplit(d, w);
      DigitsOfFill(m[1..], d[w..]);
      DigitsOfGroup(m[0].lead, d[..w], Fill(m[1..], d[w..]), Fill(m, d));
    }
  }

  /** `w` consecutive digits start at index `j` of `s`. */
  predicate RunAt(s: string, w: nat, j: nat) {
    j + w <= |s| && AllDigits(s[j..j + w])
  }

  /** The leftmost index at or after `i` where `w` consecutive digits start:
      where a regular expression made of `\d` groups of total width `w`
      matches, since a backtracking matcher tries each start in turn. */
  function FirstRun(s: string, w: nat, i: nat): (r: Option<nat>)
    requires i <= |s|
    ensures r.Some? ==> i <= r.value && RunAt(s, w, r.value)
    ensures r.Some? ==> forall j :: i <= j < r.value ==> !RunAt(s, w, j)
    ensures r.None? ==> forall j :: i <= j ==> !RunAt(s, w, j)
    decreases |s| - i
  {
    if i + w > |s| then None
    else if RunAt(s, w, i) then Some(i)
    else FirstRun(s, w, i + 1)
  }

  /** `s.replace(pattern, template)` for a non-global pattern built from `m`:
      the leftmost match, if any, is rewritten and the rest of `s` is kept. */
  function ReplaceFirst(m: Mask, s: string): (r: string)
  {
    match FirstRun(s, Width(m), 0)
    case None => s
    case Some(i) => s[..i] + Fill(m, s[i..i + Width(m)]) + s[i + Width(m)..]
  }

  /** The common body of `formatCPF` and `formatPhone`. */
  function Format(m: Mask, value: string): string
  {
    var numbers := Digits(value);
    if |numbers| <= MaxDigits then ReplaceFirst(m, numbers) else value
  }

  /** The three outcomes of a formatter whose pattern is eleven digits wide. */
  lemma FormatCases(m: Mask, value: string)
    requires Width(m) == MaxDigits
    ensures |Digits(value)| < MaxDigits ==> Format(m, value) == Digits(value)
    ensures |Digits(value)| == MaxDigits ==> Format(m, value) == Fill(m, Digits(value))
    ensures |Digits(value)| > MaxDigits ==> Format(m, value) == value
  {
    var n := Digits(value);
    if |n| == MaxDigits {
      assert n[0..MaxDigits] == n;
      assert FirstRun(n, MaxDigits, 0) == Some(0);
    }
  }

  /** A formatter never adds or loses a digit. */
  lemma FormatKeepsDigits(m: Mask, value: string)
    requires Width(m) == MaxDigits && DigitFreeLeads(m)
    ensures Digits(Format(m, value)) == Digits(value)
  {
    FormatCases(m, value);
    if |Digits(value)| == MaxDigits {
      DigitsOfFill(m, Digits(value));
    }
  }

  /** Formatting an already formatted value changes nothing. */
  lemma FormatIdempotent(m: Mask, value: string)
    requires Width(m) == MaxDigits && DigitFreeLeads(m)
    ensures Format(m, Format(m, value)) == Format(m, value)
  {
    FormatKeepsDigits(m, value);
    FormatCases(m, value);
    FormatCases(m, Format(m, value));
  }

  lemma CpfMaskFacts()
    ensures Width(CpfMask) == MaxDigits && DigitFreeLeads(CpfMask)
  {
    assert CpfMask[1..][1..][1..][1..] == [];
  }

  lemma PhoneMaskFacts()
    ensures Width(PhoneMask) == MaxDigits && DigitFreeLeads(PhoneMask)
  {
    assert PhoneMask[1..][1..][1..] == [];
  }

  /** One step of `Fill`, for a mask given as its first group and the rest. */
  lemma FillCons(g: Group, m: Mask, d: string)
    requires |d| == g.width + Width(m)
    ensures Width([g] + m) == g.width + Width(m)
    ensures Fill([g] + m, d) == g.lead + d[..g.width] + Fill(m, d[g.width..])
  {
    assert ([g] + m)[1..] == m;
  }

  lemma FillLast(g: Group, d: string)
    requires |d| == g.width
    ensures Width([g]) == g.width
    ensures Fill([g], d) == g.lead + d
  {
    FillCons(g, [], d);
    assert d[..g.width] == d;
  }

  /** Three groups of a template, each a lead and its digits, read flat. */
  lemma Regroup3(a: string, b: string, c: string, e: string, f: string, g: string)
    ensures a + b + (c + e + (f + g)) == a + b + c + e + f + g
  {
  }

  lemma Regroup4(a: string, b: string, c: string, e: string, f: string, g: string, h: string, k: string)
    ensures a + b + (c + e + (f + g + (h + k))) == a + b + c + e + f + g + h + k
  {
    Regroup3(a, b, c, e, f, g + (h + k));
  }

  /** A slice of a suffix is a slice of the whole. */
  lemma SliceOfSuffix(d: string, i: nat, w: nat)
    requires i + w <= |d|
    ensures d[i..][..w] == d[i..i + w] && d[i..][w..] == d[i + w..]
  {
  }

  /** The CPF template spelled out. */
  lemma FillCpf(d: string)
    requires |d| == MaxDigits
    ensures Width(CpfMask) == MaxDigits
    ensures Fill(CpfMask, d) == d[..3] + "." + d[3..6] + "." + d[6..9] + "-" + d[9..]
  {
    var m3: Mask := [Group("-", 2)];
    var m2: Mask := [Group(".", 3)] + m3;
    var m1: Mask := [Group(".", 3)] + m2;
    assert CpfMask == [Group("", 3)] + m1;
    FillLast(Group("-", 2), d[9..]);
    FillCons(Group(".", 3), m3, d[6..]);
    SliceOfSuffix(d, 6, 3);
    FillCons(Group(".", 3), m2, d[3..]);
    SliceOfSuffix(d, 3, 3);
    FillCons(Group("", 3), m1, d);
    Regroup4("", d[..3], ".", d[3..6], ".", d[6..9], "-", d[9..]);
    assert "" + d[..3] == d[..3];
  }

  /** The phone template spelled out. */
  lemma FillPhone(d: string)
    requires |d| == MaxDigits
    ensures Width(PhoneMask) == MaxDigits
    ensures Fill(PhoneMask, d) == "(" + d[..2] + ") " + d[2..7] + "-" + d[7..]
  {
    var m2: Mask := [Group("-", 4)];
    var m1: Mask := [Group(") ", 5)] + m2;
    assert PhoneMask == [Group("(", 2)] + m1;
    FillLast(Group("-", 4), d[7..]);
    FillCons(Group(") ", 5), m2, d[2..]);
    SliceOfSuffix(d, 2, 5);
    FillCons(Group("(", 2), m1, d);
    Regroup3("(", d[..2], ") ", d[2..7], "-", d[7..]);
  }

  /** `formatCPF`: eleven digits become `DDD.DDD.DDD-DD`, fewer come back as
      bare digits, more leave the input untouched; no digit is ever added or
      lost, and an input the field's `maxLength={14}` admits stays within it. */
  function FormatCpf(value: string): (r: string)
    ensures var d := Digits(value);
      |d| == MaxDigits ==> r == d[..3] + "." + d[3..6] + "." + d[6..9] + "-" + d[9..]
    ensures |Digits(value)| < MaxDigits ==> r == Digits(value)
    ensures |Digits(value)| > MaxDigits ==> r == value
    ensures Digits(r) == Digits(value)
    ensures |value| <= CpfMaxLength ==> |r| <= CpfMaxLength
  {
    CpfMaskFacts();
    FormatCases(CpfMask, value);
    FormatKeepsDigits(CpfMask, value);
    if |Digits(value)| == MaxDigits then FillCpf(Digits(value)); Format(CpfMask, value)
    else Format(CpfMask, value)
  }

  /** `formatPhone`: eleven digits become `(DD) DDDDD-DDDD`, fewer (a ten-digit
      landline included) come back as bare digits, more leave the input
      untouched; no digit is ever added or lost. */
  function FormatPhone(value: string): (r: string)
    ensures var d := Digits(value);
      |d| == MaxDigits ==> r == "(" + d[..2] + ") " + d[2..7] + "-" + d[7..]
    ensures |Digits(value)| < MaxDigits ==> r == Digits(value)
    ensures |Digits(value)| > MaxDigits ==> r == value
    ensures Digits(r) == Digits(value)
  {
    PhoneMaskFacts();
    FormatCases(PhoneMask, value);
    FormatKeepsDigits(PhoneMask, value);
    if |Digits(value)| == MaxDigits then FillPhone(Digits(value)); Format(PhoneMask, value)
    else Format(PhoneMask, value)
  }

  lemma FormatCpfIdempotent(value: string)
    ensures FormatCpf(FormatCpf(value)) == FormatCpf(value)
  {
    CpfMaskFacts();
    FormatIdempotent(CpfMask, value);
  }

  lemma FormatPhoneIdempotent(value: string)
    ensures FormatPhone(FormatPhone(value)) == FormatPhone(value)
  {
    PhoneMaskFacts();
    FormatIdempotent(PhoneMask, value);
  }

  /** The shape `DDD.DDD.DDD-DD`, stated position by position. */
  predicate IsFormattedCpf(s: string) {
    && |s| == 14
    && s[3] == '.' && s[7] == '.' && s[11] == '-'
    && forall i :: 0 <= i < 14 && i != 3 && i != 7 && i != 11 ==> IsDigit(s[i])
  }

  /** The shape `(DD) DDDDD-DDDD`, stated position by position. */
  predicate IsFormattedPhone(s: string) {
    && |s| == 15
    && s[0] == '(' && s[3] == ')' && s[4] == ' ' && s[10] == '-'
    && forall i :: 0 <= i < 15 && i != 0 && i != 3 && i != 4 && i != 10 ==> IsDigit(s[i])
  }

  lemma AllDigitsSlice(s: string, lo: int, hi: int)
    requires 0 <= lo <= hi <= |s|
    requires forall i :: lo <= i < hi ==> IsDigit(s[i])
    ensures Digits(s[lo..hi]) == s[lo..hi]
  {
    assert AllDigits(s[lo..hi]) by {
      forall k | 0 <= k < hi - lo ensures IsDigit(s[lo..hi][k]) {
        assert s[lo..hi][k] == s[lo + k];
      }
    }
  }

  /** A digit-free separator between two strings drops out of their digits. */
  lemma DigitsAround(a: string, sep: string, b: string)
    requires forall i :: 0 <= i < |sep| ==> !IsDigit(sep[i])
    ensures Digits(a + sep + b) == Digits(a) + Digits(b)
  {
    DigitsOfLiteral(sep);
    DigitsConcat(a + sep, b);
    DigitsConcat(a, sep);
    assert Digits(a) + [] == Digits(a);
  }

  /** The digits of a formatted CPF, read off by position. */
  lemma FormattedCpfDigits(s: string)
    requires IsFormattedCpf(s)
    ensures Digits(s) == s[..3] + s[4..7] + s[8..11] + s[12..]
  {
    var a, b, c, e := s[..3], s[4..7], s[8..11], s[12..];
    assert s == a + "." + b + "." + c + "-" + e;
    AllDigitsSlice(s, 0, 3);
    AllDigitsSlice(s, 4, 7);
    AllDigitsSlice(s, 8, 11);
    AllDigitsSlice(s, 12, 14);
    assert s[0..3] == a && s[12..14] == e;
    DigitsAround(a + "." + b + "." + c, "-", e);
    DigitsAround(a + "." + b, ".", c);
    DigitsAround(a, ".", b);
  }

  /** A formatted phone number is its three digit groups between the literals. */
  lemma PhoneParts(s: string)
    requires IsFormattedPhone(s)
    ensures s == "(" + s[1..3] + ") " + s[5..10] + "-" + s[11..]
  {
  }

  /** Digit-free separators drop out of the digits of three groups. */
  lemma DigitsOfThreeGroups(p: string, a: string, q: string, b: string, t: string, c: string)
    requires Digits(p) == [] && Digits(q) == [] && Digits(t) == []
    requires Digits(a) == a && Digits(b) == b && Digits(c) == c
    ensures Digits(p + a + q + b + t + c) == a + b + c
  {
    calc {
      Digits(p + a + q + b + t + c);
      { DigitsConcat(p + a + q + b + t, c); }
      Digits(p + a + q + b + t) + c;
      { DigitsConcat(p + a + q + b, t); assert Digits(p + a + q + b) + [] == Digits(p + a + q + b); }
      Digits(p + a + q + b) + c;
      { DigitsConcat(p + a + q, b); }
      Digits(p + a + q) + b + c;
      { DigitsConcat(p + a, q); assert Digits(p + a) + [] == Digits(p + a); }
      Digits(p + a) + b + c;
      { DigitsConcat(p, a); assert [] + a == a; }
      a + b + c;
    }
  }

  /** The literals of the phone template drop out of its digits. */
  lemma DigitsOfPhoneParts(a: string, b: string, c: string)
    requires Digits(a) == a && Digits(b) == b && Digits(c) == c
    ensures Digits("(" + a + ") " + b + "-" + c) == a + b + c
  {
    DigitsOfLiteral("(");
    DigitsOfLiteral(") ");
    DigitsOfLiteral("-");
    DigitsOfThreeGroups("(", a, ") ", b, "-", c);
  }

  /** The digits of a formatted phone number, read off by position. */
  lemma FormattedPhoneDigits(s: string)
    requires IsFormattedPhone(s)
    ensures Digits(s) == s[1..3] + s[5..10] + s[11..]
  {
    AllDigitsSlice(s, 1, 3);
    AllDigitsSlice(s, 5, 10);
    AllDigitsSlice(s, 11, 15);
    assert s[11..15] == s[11..];
    PhoneParts(s);
    DigitsOfPhoneParts(s[1..3], s[5..10], s[11..]);
  }

  /** A formatted CPF is the formatting of its own eleven digits. */
  lemma FormattedCpfIsFormatting(s: string)
    requires IsFormattedCpf(s)
    ensures |Digits(s)| == MaxDigits && FormatCpf(Digits(s)) == s
  {
    var d := Digits(s);
    FormattedCpfDigits(s);
    assert d[..3] == s[..3] && d[3..6] == s[4..7] && d[6..9] == s[8..11] && d[9..] == s[12..];
    assert Digits(d) == d;
    assert s == d[..3] + "." + d[3..6] + "." + d[6..9] + "-" + d[9..];
  }

  /** The CPF template filled with eleven digits has the formatted shape. */
  lemma CpfTemplateShape(d: string)
    requires AllDigits(d) && |d| == MaxDigits
    ensures IsFormattedCpf(d[..3] + "." + d[3..6] + "." + d[6..9] + "-" + d[9..])
  {
    var s := d[..3] + "." + d[3..6] + "." + d[6..9] + "-" + d[9..];
    forall i | 0 <= i < 14 && i != 3 && i != 7 && i != 11 ensures IsDigit(s[i]) {
      if i < 3 { assert s[i] == d[i]; }
      else if i < 7 { assert s[i] == d[i - 1]; }
      else if i < 11 { assert s[i] == d[i - 2]; }
      else { assert s[i] == d[i - 3]; }
    }
  }

  /** Formatting eleven digits gives a formatted CPF. */
  lemma FormattingIsFormattedCpf(d: string)
    requires AllDigits(d) && |d| == MaxDigits
    ensures IsFormattedCpf(FormatCpf(d))
  {
    assert Digits(d) == d;
    CpfTemplateShape(d);
  }

  /** Formatted CPFs are exactly the results of formatting eleven digits, and
      formatting the digits of one gives it back. */
  lemma CpfRoundTrip(s: string)
    ensures IsFormattedCpf(s) <==> (|Digits(s)| == MaxDigits && FormatCpf(Digits(s)) == s)
  {
    if IsFormattedCpf(s) {
      FormattedCpfIsFormatting(s);
    }
    if |Digits(s)| == MaxDigits && FormatCpf(Digits(s)) == s {
      FormattingIsFormattedCpf(Digits(s));
    }
  }

  /** A formatted phone number is the formatting of its own eleven digits. */
  lemma FormattedPhoneIsFormatting(s: string)
    requires IsFormattedPhone(s)
    ensures |Digits(s)| == MaxDigits && FormatPhone(Digits(s)) == s
  {
    var d := Digits(s);
    FormattedPhoneDigits(s);
    assert d[..2] == s[1..3] && d[2..7] == s[5..10] && d[7..] == s[11..];
    assert Digits(d) == d;
    PhoneParts(s);
  }

  /** The phone template filled with eleven digits has the formatted shape. */
  lemma PhoneTemplateShape(d: string)
    requires AllDigits(d) && |d| == MaxDigits
    ensures IsFormattedPhone("(" + d[..2] + ") " + d[2..7] + "-" + d[7..])
  {
    var s := "(" + d[..2] + ") " + d[2..7] + "-" + d[7..];
    forall i | 0 <= i < 15 && i != 0 && i != 3 && i != 4 && i != 10 ensures IsDigit(s[i]) {
      if i < 3 { assert s[i] == d[i - 1]; }
      else if i < 10 { assert s[i] == d[i - 3]; }
      else { assert s[i] == d[i - 4]; }
    }
  }

  /** Formatting eleven digits gives a formatted phone number. */
  lemma FormattingIsFormattedPhone(d: string)
    requires AllDigits(d) && |d| == MaxDigits
    ensures IsFormattedPhone(FormatPhone(d))
  {
    assert Digits(d) == d;
    PhoneTemplateShape(d);
  }

  /** Formatted phone numbers are exactly the results of formatting eleven
      digits, and formatting the digits of one gives it back. */
  lemma PhoneRoundTrip(s: string)
    ensures IsFormattedPhone(s) <==> (|Digits(s)| == MaxDigits && FormatPhone(Digits(s)) == s)
  {
    if IsFormattedPhone(s) {
      FormattedPhoneIsFormatting(s);
    }
    if |Digits(s)| == MaxDigits && FormatPhone(Digits(s)) == s {
      FormattingIsFormattedPhone(Digits(s));
    }
  }

  /** A non-empty value the CPF input holds has at least one digit, so the
      digit-stripped CPF sent is never empty. */
  lemma CanonicalCpfHasDigits(s: string)
    requires FormatCpf(s) == s && s != ""
    ensures Digits(s) != ""
  {
  }

  /** A non-empty value the phone input holds has at least one digit. */
  lemma CanonicalPhoneHasDigits(s: string)
    requires FormatPhone(s) == s && s != ""
    ensures Digits(s) != ""
  {
  }

  /** The PIN inputs' `value.replace(/\D/g, '').slice(0, 4)`: the first four
      digits typed, or all of them when there are fewer. */
  function SanitizePin(value: string): (r: string)
    ensures AllDigits(r) && |r| <= PinLength
    ensures r <= Digits(value)
    ensures |Digits(value)| <= PinLength ==> r == Digits(value)
    ensures |Digits(value)| > PinLength ==> |r| == PinLength
  {
    Prefix(Digits(value), PinLength)
  }

  /** Re-sanitising a sanitised PIN changes nothing, and a value of at most
      four digits is its own sanitisation. */
  lemma SanitizePinIdempotent(value: string)
    ensures SanitizePin(SanitizePin(value)) == SanitizePin(value)
    ensures SanitizePin(value) == value <==> AllDigits(value) && |value| <= PinLength
  {
  }
}

=== FILE: profile.dfy ===
/** The profile page: the user's registration data loaded from
    `GET /api/user/profile`, of which only the address fields and the phone
    number can be edited and sent back with `PUT /api/user/profile`. */
module Profile {
  import opened Js
  import opened Http
  import opened Masks

  datatype UserData = UserData(
    nomeCompleto: string,
    dataNascimento: string,
    estado: string,
    cidade: string,
    endereco: string,
    telefone: string,
    genero: string,
    cpf: string)

  /** The fields the page never lets the user change. */
  datatype Identity = Identity(nomeCompleto: string, cpf: string, dataNascimento: string, genero: string)

  function IdentityOf(u: UserData): Identity {
    Identity(u.nomeCompleto, u.cpf, u.dataNascimento, u.genero)
  }

  datatype Page = Page(
    user: Option<UserData>,
    loading: bool,
    editing: bool,
    saving: bool,
    error: string,
    success: string)

  /** The body of the update request. */
  datatype ProfileUpdate = ProfileUpdate(telefone: string, endereco: string, cidade: string, estado: string)

  /** `data.user` of the profile reply, which may be missing. */
  datatype ProfileData = ProfileData(user: Option<UserData>)

  /** `data.message` of the update reply. */
  datatype SaveReply = SaveReply(message: Option<string>)

  /** The four enabled inputs while editing. */
  datatype Change = Estado(value: string) | Cidade(value: string) | Endereco(value: string) | Telefone(value: string)

  datatype Event =
    | Loaded(fetched: Fetched<ProfileData>)  // `carregarDados` after its `fetch` settles
    | StartEdit                              // "Editar Dados"
    | Cancel                                 // "Cancelar"
    | Edit(change: Change)
    | Save                                   // `handleSave` up to the `fetch`
    | Saved(reply: Fetched<SaveReply>)       // `handleSave` after the `fetch` settles

  datatype Command = FetchProfile | PutProfile(update: ProfileUpdate)

  const SaveSucceeded := "Dados atualizados com sucesso!"
  const SaveFailed := "Erro ao atualizar dados"
  const ConnectionError := "Erro de conexão. Tente novamente."

  const Initial := Page(None, true, false, false, "", "")

  /** `carregarDados` once its request settles: an ok JSON reply replaces the
      user data (with whatever `data.user` holds), anything else leaves it;
      `loading` ends either way. */
  function Load(p: Page, fetched: Fetched<ProfileData>): (r: Page)
    ensures !r.loading
    ensures r.user != p.user ==> fetched.Responded? && fetched.response.Ok() && fetched.response.json.Some?
    ensures fetched.Responded? && fetched.response.Ok() && fetched.response.json.Some? ==>
      r.user == fetched.response.json.value.user
    ensures r.editing == p.editing && r.saving == p.saving && r.error == p.error
  {
    if fetched.Responded? && fetched.response.Ok() then
      match ReadJson(fetched.response, false)
      case Normal(d) => p.(user := d.user, loading := false)
      case Thrown(_) => p.(loading := false)
    else p.(loading := false)
  }

  /** The `onChange` handlers of the four enabled inputs; the phone is
      re-formatted as it is typed. */
  function ApplyChange(u: UserData, c: Change): (r: UserData)
    ensures IdentityOf(r) == IdentityOf(u)
    ensures c.Telefone? ==> Digits(r.telefone) == Digits(c.value) && FormatPhone(r.telefone) == r.telefone
    ensures !c.Telefone? ==> r.telefone == u.telefone
    ensures c.Estado? ==> r.estado == c.value
    ensures c.Cidade? ==> r.cidade == c.value
    ensures c.Endereco? ==> r.endereco == c.value
    ensures c.Telefone? ==> r.telefone == FormatPhone(c.value)
    ensures !c.Estado? ==> r.estado == u.estado
    ensures !c.Cidade? ==> r.cidade == u.cidade
    ensures !c.Endereco? ==> r.endereco == u.endereco
  {
    match c
    case Estado(v) => u.(estado := v)
    case Cidade(v) => u.(cidade := v)
    case Endereco(v) => u.(endereco := v)
    case Telefone(v) =>
      FormatPhoneIdempotent(v);
      u.(telefone := FormatPhone(v))
  }

  /** The update body: the phone as digits only and the three address fields
      as held; name, CPF, birth date and gender are not part of it. */
  function UpdateOf(u: UserData): (q: ProfileUpdate)
    ensures AllDigits(q.telefone) && q.telefone == Digits(u.telefone)
    ensures q.endereco == u.endereco && q.cidade == u.cidade && q.estado == u.estado
  {
    ProfileUpdate(Digits(u.telefone), u.endereco, u.cidade, u.estado)
  }

  /** Two records that differ only in the fields the page cannot edit produce
      the same update: nothing else reaches the server. */
  lemma UpdateIgnoresIdentity(u: UserData, v: UserData)
    requires u.telefone == v.telefone && u.endereco == v.endereco
    requires u.cidade == v.cidade && u.estado == v.estado
    ensures UpdateOf(u) == UpdateOf(v)
  {
  }

  /** `handleSave` up to the request: nothing at all happens without loaded
      data; otherwise both messages are cleared, `saving` is set and the
      update of the current data goes out. */
  function BeginSave(p: Page): (r: (Page, Option<Command>))
    ensures p.user.None? ==> r == (p, None)
    ensures p.user.Some? ==> r.1 == Some(PutProfile(UpdateOf(p.user.value)))
    ensures p.user.Some? ==> r.0.saving && r.0.error == "" && r.0.success == ""
    ensures r.0.user == p.user && r.0.editing == p.editing
  {
    if p.user.None? then (p, None)
    else (p.(saving := true, error := "", success := ""), Some(PutProfile(UpdateOf(p.user.value))))
  }

  /** `handleSave` after the request settles: an ok reply ends editing and
      shows the success message; a refusal keeps editing on and shows the
      server's message or "Erro ao atualizar dados"; an unreachable server or
      a body that is not JSON shows the connection error. `saving` ends on
      every path. */
  function CompleteSave(p: Page, fetched: Fetched<SaveReply>): (r: Page)
    ensures !r.saving
    ensures !r.editing <==> !p.editing || (fetched.Responded? && fetched.response.Ok() && fetched.response.json.Some?)
    ensures fetched.Responded? && fetched.response.Ok() && fetched.response.json.Some? ==> r.success == SaveSucceeded && r.error == p.error
    ensures fetched.Responded? && !fetched.response.Ok() && fetched.response.json.Some? ==>
      r.error == OrElse(fetched.response.json.value.message, SaveFailed) && r.success == p.success
    ensures FetchJson(fetched).Thrown? ==> r.error == ConnectionError && r.success == p.success
    ensures r.editing ==> r.error != "" || !p.editing
    ensures r.user == p.user
  {
    match FetchJson(fetched)
    case Thrown(_) => p.(error := ConnectionError, saving := false)
    case Normal(d) =>
      if fetched.response.Ok() then p.(success := SaveSucceeded, editing := false, saving := false)
      else p.(error := OrElse(d.message, SaveFailed), saving := false)
  }

  /** One event; a control that is not rendered, or is disabled, does nothing. */
  function Next(p: Page, e: Event): (r: (Page, seq<Command>))
    ensures !e.Loaded? && p.user.Some? ==> r.0.user.Some? && IdentityOf(r.0.user.value) == IdentityOf(p.user.value)
    ensures !e.Loaded? ==> r.0.user.Some? == p.user.Some?
    ensures r.0.user != p.user ==> e.Loaded? || (e.Edit? && p.editing)
    ensures forall c :: c in r.1 && c.PutProfile? ==> e.Save? && p.user.Some? && c.update == UpdateOf(p.user.value)
  {
    match e
    case Loaded(fetched) => (Load(p, fetched), [])
    case StartEdit =>
      if p.user.Some? && !p.loading && !p.editing then (p.(editing := true), []) else (p, [])
    case Cancel =>
      if p.user.Some? && p.editing && !p.saving then (p.(editing := false), [FetchProfile]) else (p, [])
    case Edit(c) =>
      if p.user.Some? && p.editing then (p.(user := Some(ApplyChange(p.user.value, c))), []) else (p, [])
    case Save =>
      if p.editing && !p.saving then
        var (q, cmd) := BeginSave(p);
        (q, if cmd.Some? then [cmd.value] else [])
      else (p, [])
    case Saved(fetched) => (CompleteSave(p, fetched), [])
  }

  function Run(p: Page, es: seq<Event>): (r: (Page, seq<Command>))
    decreases |es|
  {
    if es == [] then (p, [])
    else
      var (q, cs) := Next(p, es[0]);
      var (t, ds) := Run(q, es[1..]);
      (t, cs + ds)
  }

  /** Until the data is reloaded from the server, no sequence of clicks and
      keystrokes changes the name, CPF, birth date or gender. */
  lemma {:induction false} RunKeepsIdentity(p: Page, es: seq<Event>)
    requires p.user.Some?
    requires forall i :: 0 <= i < |es| ==> !es[i].Loaded?
    ensures Run(p, es).0.user.Some?
    ensures IdentityOf(Run(p, es).0.user.value) == IdentityOf(p.user.value)
    decreases |es|
  {
    if es != [] {
      RunKeepsIdentity(Next(p, es[0]).0, es[1..]);
    }
  }

  /** Every update sent, in any run, carries the phone number as digits only. */
  lemma {:induction false} RunSendsDigitPhones(p: Page, es: seq<Event>)
    ensures forall c :: c in Run(p, es).1 && c.PutProfile? ==> AllDigits(c.update.telefone)
    decreases |es|
  {
    if es != [] {
      var (q, cs) := Next(p, es[0]);
      RunSendsDigitPhones(q, es[1..]);
      assert Run(p, es).1 == cs + Run(q, es[1..]).1;
    }
  }

  /** The CPF as the disabled input shows it: a stored eleven-digit CPF is
      shown as `DDD.DDD.DDD-DD` carrying the same digits. */
  function ShownCpf(u: UserData): (s: string)
    ensures AllDigits(u.cpf) && |u.cpf| == MaxDigits ==> IsFormattedCpf(s) && Digits(s) == u.cpf
  {
    var s := FormatCpf(u.cpf);
    if AllDigits(u.cpf) && |u.cpf| == MaxDigits then
      CpfRoundTrip(s);
      s
    else s
  }

  /** The phone as its input shows it: a stored eleven-digit number is shown
      as `(DD) DDDDD-DDDD` carrying the same digits. */
  function ShownPhone(u: UserData): (s: string)
    ensures AllDigits(u.telefone) && |u.telefone| == MaxDigits ==> IsFormattedPhone(s) && Digits(s) == u.telefone
  {
    var s := FormatPhone(u.telefone);
    if AllDigits(u.telefone) && |u.telefone| == MaxDigits then
      PhoneRoundTrip(s);
      s
    else s
  }

  /** An edit while editing rewrites the data on screen and sends nothing. */
  lemma EditApplies(p: Page, c: Change)
    requires p.user.Some? && p.editing
    ensures Next(p, Edit(c)) == (p.(user := Some(ApplyChange(p.user.value, c))), [])
  {
  }

  /** Saving while editing sends the update of the data on screen, and only that. */
  lemma SaveSendsUpdate(p: Page)
    requires p.user.Some? && p.editing && !p.saving
    ensures Next(p, Save).1 == [PutProfile(UpdateOf(p.user.value))]
  {
    var (q, cmd) := BeginSave(p);
    assert cmd == Some(PutProfile(UpdateOf(p.user.value)));
  }

  /** Typing a phone number and saving sends exactly its digits. */
  lemma TypedPhoneIsSaved(p: Page, typed: string)
    requires p.user.Some? && p.editing && !p.saving
    ensures var q := Next(p, Edit(Telefone(typed))).0;
      Next(q, Save).1 == [PutProfile(UpdateOf(q.user.value))]
      && UpdateOf(q.user.value).telefone == Digits(typed)
  {
    var u := ApplyChange(p.user.value, Telefone(typed));
    var q := p.(user := Some(u));
    EditApplies(p, Telefone(typed));
    SaveSendsUpdate(q);
    assert UpdateOf(u).telefone == Digits(typed);
  }
}

=== FILE: register.dfy ===
/** The two-step registration modal: personal data first, then a four-digit
    PIN typed twice, then one `POST /api/auth/register`. Every handler is a
    transition over the modal's state; the request the modal sends and the
    `onSuccess` call it makes are returned as effects. */
module Register {
  import opened Js
  import opened Http
  import opened Masks

  datatype Step = Personal | Password

  /** The eight inputs of the first step, as the inputs currently hold them. */
  datatype Fields = Fields(
    nomeCompleto: string,
    dataNascimento: string,
    estado: string,
    cidade: string,
    endereco: string,
    telefone: string,
    genero: string,
    cpf: string)

  datatype Form = Form(
    step: Step,
    fields: Fields,
    senha: string,
    confirmarSenha: string,
    loading: bool,
    error: string)

  /** The JSON body of the register request. */
  datatype RegisterRequest = RegisterRequest(
    nomeCompleto: string,
    dataNascimento: string,
    estado: string,
    cidade: string,
    endereco: string,
    telefone: string,
    genero: string,
    cpf: string,
    senha: string)

  /** The fields of the server's reply the modal reads: `message` and
      `errors?.[0]?.message`. */
  datatype RegisterReply = RegisterReply(message: Option<string>, firstErrorMessage: Option<string>)

  /** A value typed into one input, as the browser delivers it to `onChange`. */
  datatype Input =
    | Nome(value: string)
    | Nascimento(value: string)
    | Estado(value: string)
    | Cidade(value: string)
    | Endereco(value: string)
    | Telefone(value: string)
    | Genero(value: string)
    | Cpf(value: string)
    | Senha(value: string)
    | ConfirmarSenha(value: string)

  datatype Event =
    | Type(input: Input)
    | SubmitPersonal                      // `handleStep1Submit`
    | Back                                // the "Voltar" button of the second step
    | SubmitPassword                      // `handleStep2Submit` up to the `fetch`
    | Reply(fetched: Fetched<RegisterReply>)  // `handleStep2Submit` after the `fetch` settles

  datatype Effect = NoEffect | Send(request: RegisterRequest) | Registered

  const FillAllFields := "Preencha todos os campos"
  const PinMismatch := "As senhas não coincidem"
  const PinWrongLength := "A senha deve ter exatamente 4 dígitos"
  const RegisterFailed := "Erro ao cadastrar"
  const ConnectionErrorPrefix := "Erro de conexão: "

  const Blank := Fields("", "", "", "", "", "", "", "")
  const Initial := Form(Personal, Blank, "", "", false, "")

  /** The step whose form holds the input. */
  function StepOf(input: Input): Step {
    match input
    case Senha(_) => Password
    case ConfirmarSenha(_) => Password
    case _ => Personal
  }

  /** The browser keeps a value within its input's `maxLength`. */
  predicate WithinMaxLength(input: Input) {
    match input
    case Cpf(v) => |v| <= CpfMaxLength
    case Senha(v) => |v| <= PinLength
    case ConfirmarSenha(v) => |v| <= PinLength
    case _ => true
  }

  predicate Allowed(e: Event) {
    e.Type? ==> WithinMaxLength(e.input)
  }

  /** Every masked input holds a value its `onChange` handler would leave as it is. */
  predicate Canonical(f: Form) {
    && FormatCpf(f.fields.cpf) == f.fields.cpf
    && |f.fields.cpf| <= CpfMaxLength
    && FormatPhone(f.fields.telefone) == f.fields.telefone
    && SanitizePin(f.senha) == f.senha
    && SanitizePin(f.confirmarSenha) == f.confirmarSenha
  }

  /** The `onChange` handlers of the first step: the CPF and phone are
      re-formatted on every keystroke, the rest is stored as typed. */
  function Store(x: Fields, input: Input): (r: Fields)
    requires StepOf(input) == Personal
    ensures input.Nome? ==> r == x.(nomeCompleto := input.value)
    ensures input.Nascimento? ==> r == x.(dataNascimento := input.value)
    ensures input.Estado? ==> r == x.(estado := input.value)
    ensures input.Cidade? ==> r == x.(cidade := input.value)
    ensures input.Endereco? ==> r == x.(endereco := input.value)
    ensures input.Genero? ==> r == x.(genero := input.value)
    ensures input.Telefone? ==> r == x.(telefone := FormatPhone(input.value))
    ensures input.Cpf? ==> r == x.(cpf := FormatCpf(input.value))
    ensures Digits(r.cpf) == (if input.Cpf? then Digits(input.value) else Digits(x.cpf))
    ensures Digits(r.telefone) == (if input.Telefone? then Digits(input.value) else Digits(x.telefone))
    ensures FormatCpf(x.cpf) == x.cpf && |x.cpf| <= CpfMaxLength && FormatPhone(x.telefone) == x.telefone
      && WithinMaxLength(input)
      ==> FormatCpf(r.cpf) == r.cpf && |r.cpf| <= CpfMaxLength && FormatPhone(r.telefone) == r.telefone
  {
    match input
    case Nome(v) => x.(nomeCompleto := v)
    case Nascimento(v) => x.(dataNascimento := v)
    case Estado(v) => x.(estado := v)
    case Cidade(v) => x.(cidade := v)
    case Endereco(v) => x.(endereco := v)
    case Telefone(v) =>
      FormatPhoneIdempotent(v);
      x.(telefone := FormatPhone(v))
    case Genero(v) => x.(genero := v)
    case Cpf(v) =>
      FormatCpfIdempotent(v);
      x.(cpf := FormatCpf(v))
  }

  /** All the `onChange` handlers: the first step's as `Store`, and the PINs
      keep only their first four digits. An input not on the current step is
      not rendered. */
  function Edit(f: Form, input: Input): (r: Form)
    ensures r.step == f.step && r.loading == f.loading && r.error == f.error
    ensures StepOf(input) != f.step ==> r == f
    ensures Canonical(f) && WithinMaxLength(input) ==> Canonical(r)
    ensures Digits(r.fields.cpf) == (if input.Cpf? && f.step == Personal then Digits(input.value) else Digits(f.fields.cpf))
    ensures Digits(r.fields.telefone) == (if input.Telefone? && f.step == Personal then Digits(input.value) else Digits(f.fields.telefone))
    // A rendered input stores its handler's value in its own field and nothing else changes.
    ensures f.step == Personal ==> r.senha == f.senha && r.confirmarSenha == f.confirmarSenha
    ensures f.step == Password ==> r.fields == f.fields
    ensures input.Nome? && f.step == Personal ==> r.fields == f.fields.(nomeCompleto := input.value)
    ensures input.Nascimento? && f.step == Personal ==> r.fields == f.fields.(dataNascimento := input.value)
    ensures input.Estado? && f.step == Personal ==> r.fields == f.fields.(estado := input.value)
    ensures input.Cidade? && f.step == Personal ==> r.fields == f.fields.(cidade := input.value)
    ensures input.Endereco? && f.step == Personal ==> r.fields == f.fields.(endereco := input.value)
    ensures input.Genero? && f.step == Personal ==> r.fields == f.fields.(genero := input.value)
    ensures input.Telefone? && f.step == Personal ==> r.fields == f.fields.(telefone := FormatPhone(input.value))
    ensures input.Cpf? && f.step == Personal ==> r.fields == f.fields.(cpf := FormatCpf(input.value))
    ensures input.Senha? && f.step == Password ==> r.senha == SanitizePin(input.value) && r.confirmarSenha == f.confirmarSenha
    ensures input.ConfirmarSenha? && f.step == Password ==> r.confirmarSenha == SanitizePin(input.value) && r.senha == f.senha
  {
    if StepOf(input) != f.step then f
    else if input.Senha? then
      SanitizePinIdempotent(input.value);
      f.(senha := SanitizePin(input.value))
    else if input.ConfirmarSenha? then
      SanitizePinIdempotent(input.value);
      f.(confirmarSenha := SanitizePin(input.value))
    else
      f.(fields := Store(f.fields, input))
  }

  /** JavaScript truthiness of all eight first-step fields. */
  predicate AllFilled(x: Fields) {
    && x.nomeCompleto != "" && x.dataNascimento != "" && x.estado != ""
    && x.cidade != "" && x.endereco != "" && x.telefone != ""
    && x.genero != "" && x.cpf != ""
  }

  /** `handleStep1Submit`: the second step opens, with the error cleared,
      exactly when no field is empty; otherwise the form stays on the first
      step with "Preencha todos os campos". */
  function SubmitPersonalData(f: Form): (r: Form)
    requires f.step == Personal
    ensures r.step == Password <==> AllFilled(f.fields)
    ensures AllFilled(f.fields) ==> r.error == ""
    ensures !AllFilled(f.fields) ==> r.error == FillAllFields
    ensures r.fields == f.fields && r.senha == f.senha && r.confirmarSenha == f.confirmarSenha
    ensures r.loading == f.loading
  {
    if AllFilled(f.fields) then f.(step := Password, error := "")
    else f.(error := FillAllFields)
  }

  /** The payload: every field as held, except that the phone and the CPF
      are reduced to their digits. */
  function Payload(f: Form): (q: RegisterRequest)
    ensures AllDigits(q.telefone) && AllDigits(q.cpf)
    ensures q.cpf == Digits(f.fields.cpf) && q.telefone == Digits(f.fields.telefone)
    ensures q.nomeCompleto == f.fields.nomeCompleto && q.dataNascimento == f.fields.dataNascimento
    ensures q.estado == f.fields.estado && q.cidade == f.fields.cidade
    ensures q.endereco == f.fields.endereco && q.genero == f.fields.genero
    ensures q.senha == f.senha
  {
    var x := f.fields;
    RegisterRequest(x.nomeCompleto, x.dataNascimento, x.estado, x.cidade, x.endereco,
                    Digits(x.telefone), x.genero, Digits(x.cpf), f.senha)
  }

  /** `handleStep2Submit` up to the request: a PIN mismatch is reported before
      a wrong length, and the request goes out only for two equal PINs of
      exactly four characters. */
  function SubmitPin(f: Form): (r: (Form, Option<RegisterRequest>))
    requires f.step == Password
    ensures r.1.Some? <==> f.senha == f.confirmarSenha && |f.senha| == PinLength
    ensures f.senha != f.confirmarSenha ==> r.0.error == PinMismatch && r.0.loading == f.loading
    ensures f.senha == f.confirmarSenha && |f.senha| != PinLength ==> r.0.error == PinWrongLength && r.0.loading == f.loading
    ensures r.1.Some? ==> r.1.value == Payload(f) && r.0.loading && r.0.error == ""
    ensures r.0.step == f.step && r.0.fields == f.fields
  {
    if f.senha != f.confirmarSenha then (f.(error := PinMismatch), None)
    else if |f.senha| != PinLength then (f.(error := PinWrongLength), None)
    else (f.(loading := true, error := ""), Some(Payload(f)))
  }

  /** `Erro ${response.status}: ${response.statusText}`. */
  function StatusMessage(r: Response<RegisterReply>): string {
    "Erro " + IntString(r.status) + ": " + r.statusText
  }

  /** `data.message || data.errors?.[0]?.message || 'Erro ao cadastrar'`. */
  function ReplyMessage(d: RegisterReply): string {
    OrElse(d.message, OrElse(d.firstErrorMessage, RegisterFailed))
  }

  /** The error shown for a non-ok response, as written: the body is read as
      JSON; when that fails, the handler reads the already consumed body again
      as text, which rejects, and the rejection escapes to the outer `catch`. */
  function RejectionAsWritten(r: Response<RegisterReply>): Completion<string> {
    match ReadJson(r, false)
    case Normal(d) => Normal(ReplyMessage(d))
    case Thrown(_) =>
      match ReadText(r, true)
      case Normal(_) => Normal(StatusMessage(r))
      case Thrown(e) => Thrown(e)
  }

  /** The error a non-ok response is evidently meant to show: the server's
      message when the body is JSON, the HTTP status line when it is not. */
  function Rejection(r: Response<RegisterReply>): (msg: string)
    ensures r.json.Some? ==> msg == ReplyMessage(r.json.value)
    ensures r.json.None? ==> msg == StatusMessage(r)
  {
    match r.json
    case Some(d) => ReplyMessage(d)
    case None => StatusMessage(r)
  }

  /** The `catch` of `handleStep2Submit`. */
  function ConnectionError(e: Exception): string {
    ConnectionErrorPrefix + ExceptionMessage(e)
  }

  /** `handleStep2Submit` after the `fetch`, as written: `onSuccess` runs
      exactly for an ok response with a JSON body; a refusal with a JSON body
      shows the server's message or the default; every other failure, a
      refusal whose body is not JSON included, lands in the outer `catch` and
      shows a connection error. No failure leaves the error blank, and
      `loading` is cleared on every path. */
  function CompleteAsWritten(f: Form, fetched: Fetched<RegisterReply>): (r: (Form, bool))
    ensures !r.0.loading
    ensures r.1 <==> fetched.Responded? && fetched.response.Ok() && fetched.response.json.Some?
    ensures r.1 ==> r.0.error == f.error
    ensures !r.1 ==> r.0.error != ""
    ensures fetched.Unreachable? ==> r.0.error == ConnectionErrorPrefix + fetched.message
    ensures fetched.Responded? && !fetched.response.Ok() && fetched.response.json.Some? ==>
      r.0.error == ReplyMessage(fetched.response.json.value)
    ensures fetched.Responded? && fetched.response.json.None? ==>
      r.0.error == ConnectionErrorPrefix + ExceptionMessage(
        if fetched.response.Ok() then InvalidJson else BodyAlreadyUsed(TextReader))
    ensures r.0.step == f.step && r.0.fields == f.fields && r.0.senha == f.senha
  {
    match fetched
    case Unreachable(m) => (f.(error := ConnectionError(NetworkFailure(m)), loading := false), false)
    case Responded(resp) =>
      if !resp.Ok() then
        match RejectionAsWritten(resp)
        case Normal(msg) => (f.(error := msg, loading := false), false)
        case Thrown(e) => (f.(error := ConnectionError(e), loading := false), false)
      else
        match ReadJson(resp, false)
        case Normal(_) => (f.(loading := false), true)
        case Thrown(e) => (f.(error := ConnectionError(e), loading := false), false)
  }

  /** `handleStep2Submit` after the `fetch`, with the non-ok branch reading the
      body once: `onSuccess` runs exactly for an ok response with a JSON body;
      an unreachable server or an ok response with an unreadable body shows a
      connection error; a refusal shows the server's message, or the status
      line when the body is not JSON. `loading` is cleared on every path. */
  function Complete(f: Form, fetched: Fetched<RegisterReply>): (r: (Form, bool))
    ensures !r.0.loading
    ensures r.1 <==> fetched.Responded? && fetched.response.Ok() && fetched.response.json.Some?
    ensures r.1 ==> r.0.error == f.error
    ensures !r.1 ==> r.0.error != ""
    ensures fetched.Unreachable? ==> r.0.error == ConnectionErrorPrefix + fetched.message
    ensures fetched.Responded? && !fetched.response.Ok() ==> r.0.error == Rejection(fetched.response)
    ensures r.0.step == f.step && r.0.fields == f.fields && r.0.senha == f.senha
  {
    match fetched
    case Unreachable(m) => (f.(error := ConnectionError(NetworkFailure(m)), loading := false), false)
    case Responded(resp) =>
      if !resp.Ok() then (f.(error := Rejection(resp), loading := false), false)
      else
        match ReadJson(resp, false)
        case Normal(_) => (f.(loading := false), true)
        case Thrown(e) => (f.(error := ConnectionError(e), loading := false), false)
  }

  /** For every refusal whose body is not JSON, the code as written reports a
      connection error caused by the second body read, never the status line
      it means to show. */
  lemma StatusMessageUnreachable(f: Form, resp: Response<RegisterReply>)
    requires !resp.Ok() && resp.json.None?
    ensures RejectionAsWritten(resp) == Thrown(BodyAlreadyUsed(TextReader))
    ensures CompleteAsWritten(f, Responded(resp)).0.error == ConnectionErrorPrefix + ExceptionMessage(BodyAlreadyUsed(TextReader))
    ensures Complete(f, Responded(resp)).0.error == StatusMessage(resp)
    ensures CompleteAsWritten(f, Responded(resp)).0.error != Complete(f, Responded(resp)).0.error
  {
    var a := ConnectionErrorPrefix + ExceptionMessage(BodyAlreadyUsed(TextReader));
    var b := StatusMessage(resp);
    assert a[5] == 'd';
    assert b[5] == IntString(resp.status)[0];
    assert b[5] != 'd';
  }

  /** A concrete case, as written: a 502 from a proxy with an HTML body is
      reported as a connection failure. */
  lemma BadGatewayAsWritten()
    ensures CompleteAsWritten(Initial, Responded(Response(502, "Bad Gateway", "<html>502</html>", None))).0.error
         == ConnectionErrorPrefix + "Failed to execute 'text' on 'Response': body stream already read"
  {
    var resp := Response(502, "Bad Gateway", "<html>502</html>", None);
    StatusMessageUnreachable(Initial, resp);
  }

  /** The same response, handled as intended: the status line is shown. */
  lemma BadGatewayCorrected()
    ensures Complete(Initial, Responded(Response(502, "Bad Gateway", "<html>502</html>", None))).0.error
         == "Erro 502: Bad Gateway"
  {
    var resp := Response(502, "Bad Gateway", "<html>502</html>", None);
    assert StatusMessage(resp) == "Erro 502: Bad Gateway" by {
      assert Decimal(5) == "5" && Decimal(0) == "0" && Decimal(2) == "2";
      assert Decimal(50) == "50";
      assert IntString(502) == Decimal(50) + Decimal(2);
    }
  }

  /** Where the as-written handler and the corrected one agree: everywhere
      except a refusal whose body is not JSON. */
  lemma CompleteAgreesElsewhere(f: Form, fetched: Fetched<RegisterReply>)
    requires !(fetched.Responded? && !fetched.response.Ok() && fetched.response.json.None?)
    ensures CompleteAsWritten(f, fetched) == Complete(f, fetched)
  {
  }

  /** The second step is only ever shown for a complete first step. */
  predicate Gated(f: Form) {
    f.step == Password ==> AllFilled(f.fields)
  }

  /** One event of the modal, with the reply handled as written. */
  function Next(f: Form, e: Event): (r: (Form, Effect))
    ensures r.1.Send? <==> (e.SubmitPassword? && f.step == Password && !f.loading
                            && f.senha == f.confirmarSenha && |f.senha| == PinLength)
    ensures r.1.Send? ==> r.1.request == Payload(f)
    ensures r.1.Registered? ==> e.Reply?
    ensures Canonical(f) && Allowed(e) ==> Canonical(r.0)
    ensures Gated(f) ==> Gated(r.0)
    ensures Gated(f) && r.1.Send? ==> AllFilled(f.fields)
  {
    match e
    case Type(input) => (Edit(f, input), NoEffect)
    case SubmitPersonal =>
      if f.step == Personal then (SubmitPersonalData(f), NoEffect) else (f, NoEffect)
    case Back =>
      if f.step == Password then (f.(step := Personal), NoEffect) else (f, NoEffect)
    case SubmitPassword =>
      if f.step != Password || f.loading then (f, NoEffect)
      else
        var (g, q) := SubmitPin(f);
        (g, if q.Some? then Send(q.value) else NoEffect)
    case Reply(fetched) =>
      var (g, ok) := CompleteAsWritten(f, fetched);
      (g, if ok then Registered else NoEffect)
  }

  /** The state after a run of events, and the effects in order. */
  function Run(f: Form, es: seq<Event>): (r: (Form, seq<Effect>))
    ensures |r.1| == |es|
    decreases |es|
  {
    if es == [] then (f, [])
    else
      var (g, x) := Next(f, es[0]);
      var (h, xs) := Run(g, es[1..]);
      (h, [x] + xs)
  }

  /** Whatever the user types, every masked input keeps a canonical value: a
      CPF within fourteen characters that re-formatting leaves alone, a phone
      number likewise, and PINs of at most four digits. */
  lemma {:induction false} RunKeepsCanonical(f: Form, es: seq<Event>)
    requires Canonical(f)
    requires forall i :: 0 <= i < |es| ==> Allowed(es[i])
    ensures Canonical(Run(f, es).0)
    decreases |es|
  {
    if es != [] {
      RunKeepsCanonical(Next(f, es[0]).0, es[1..]);
    }
  }

  lemma InitialCanonical()
    ensures Canonical(Initial)
  {
    assert Digits("") == "";
  }

  /** A run's effects are its first event's effect followed by the rest's. */
  lemma RunCons(f: Form, es: seq<Event>)
    requires es != []
    ensures Run(f, es).1 == [Next(f, es[0]).1] + Run(Next(f, es[0]).0, es[1..]).1
  {
  }

  /** A request as the server expects it: a four-digit PIN, and a CPF and a
      phone number made of digits only. */
  predicate WellFormed(q: RegisterRequest) {
    AllDigits(q.senha) && |q.senha| == PinLength && AllDigits(q.cpf) && AllDigits(q.telefone)
  }

  /** A request with every personal field present: the CPF and the phone
      with at least one digit, everything else non-empty. */
  predicate Filled(q: RegisterRequest) {
    && q.nomeCompleto != "" && q.dataNascimento != "" && q.estado != ""
    && q.cidade != "" && q.endereco != "" && q.telefone != ""
    && q.genero != "" && q.cpf != ""
  }

  /** The request one event sends from a canonical form is well formed; from
      a gated form it is also filled in. */
  lemma SentRequest(f: Form, e: Event)
    requires Canonical(f) && Next(f, e).1.Send?
    ensures WellFormed(Next(f, e).1.request)
    ensures Gated(f) ==> Filled(Next(f, e).1.request)
  {
    if Gated(f) {
      CanonicalCpfHasDigits(f.fields.cpf);
      CanonicalPhoneHasDigits(f.fields.telefone);
    }
  }

  lemma SendsWellFormedCons(x: Effect, xs: seq<Effect>)
    requires x.Send? ==> WellFormed(x.request)
    requires forall i :: 0 <= i < |xs| && xs[i].Send? ==> WellFormed(xs[i].request)
    ensures forall i :: 0 <= i < |[x] + xs| && ([x] + xs)[i].Send? ==> WellFormed(([x] + xs)[i].request)
  {
    forall i | 0 < i < |[x] + xs| ensures ([x] + xs)[i] == xs[i - 1] { }
  }

  lemma SendsFilledCons(x: Effect, xs: seq<Effect>)
    requires x.Send? ==> Filled(x.request)
    requires forall i :: 0 <= i < |xs| && xs[i].Send? ==> Filled(xs[i].request)
    ensures forall i :: 0 <= i < |[x] + xs| && ([x] + xs)[i].Send? ==> Filled(([x] + xs)[i].request)
  {
    forall i | 0 < i < |[x] + xs| ensures ([x] + xs)[i] == xs[i - 1] { }
  }

  /** Every request sent carries a PIN of exactly four digits and a CPF and a
      phone number made of digits only. */
  lemma {:induction false} RunSendsWellFormed(f: Form, es: seq<Event>)
    requires Canonical(f)
    requires forall i :: 0 <= i < |es| ==> Allowed(es[i])
    ensures forall i :: 0 <= i < |es| && Run(f, es).1[i].Send? ==> WellFormed(Run(f, es).1[i].request)
    decreases |es|
  {
    if es != [] {
      var g, x := Next(f, es[0]).0, Next(f, es[0]).1;
      RunSendsWellFormed(g, es[1..]);
      RunCons(f, es);
      if x.Send? {
        SentRequest(f, es[0]);
      }
      SendsWellFormedCons(x, Run(g, es[1..]).1);
    }
  }

  /** Every request sent in a run from a canonical form that shows the second
      step only after a complete first step has all eight personal fields
      filled in: the first-step check is never bypassed, and the masks never
      strip a filled-in CPF or phone down to nothing. */
  lemma {:induction false} RunSendsFilled(f: Form, es: seq<Event>)
    requires Canonical(f) && Gated(f)
    requires forall i :: 0 <= i < |es| ==> Allowed(es[i])
    ensures forall i :: 0 <= i < |es| && Run(f, es).1[i].Send? ==> Filled(Run(f, es).1[i].request)
    decreases |es|
  {
    if es != [] {
      var g, x := Next(f, es[0]).0, Next(f, es[0]).1;
      RunSendsFilled(g, es[1..]);
      RunCons(f, es);
      if x.Send? {
        SentRequest(f, es[0]);
      }
      SendsFilledCons(x, Run(g, es[1..]).1);
    }
  }

  /** From the empty modal, every request sent is well formed and filled in. */
  lemma InitialRunSendsFilled(es: seq<Event>)
    requires forall i :: 0 <= i < |es| ==> Allowed(es[i])
    ensures forall i :: 0 <= i < |es| && Run(Initial, es).1[i].Send? ==>
      var q := Run(Initial, es).1[i].request;
      && Filled(q) && AllDigits(q.senha) && |q.senha| == PinLength
      && AllDigits(q.cpf) && AllDigits(q.telefone)
  {
    InitialCanonical();
    RunSendsFilled(Initial, es);
    RunSendsWellFormed(Initial, es);
  }

  /** The CPF that reaches the server is the digits of whatever was last typed
      into the CPF input, however the mask rewrote it on screen. */
  lemma SubmittedCpfIsTypedDigits(f: Form, typed: string)
    requires f.step == Password && !f.loading && f.senha == f.confirmarSenha && |f.senha| == PinLength
    ensures var g := Edit(f.(step := Personal), Cpf(typed)).(step := Password);
      Next(g, SubmitPassword).1 == Send(Payload(g)) && Payload(g).cpf == Digits(typed)
  {
  }
}
